=== FILE: README.md ===
# Instagram backend core, modelled in Dafny

This project models the core rules of a small Django REST backend for a photo-sharing app. Each rule is a pure transition over immutable records. It returns the new state together with a tagged reply, and each reply stands for one HTTP answer (200, 201, 204, 400, 401, 403, 404 or 500). Properties of the model are proved alongside it.

The model covers six pieces:

- **Accounts and one-time codes** (`auth.dfy`). This covers registration, e-mail verification, login with an optional second factor, and password reset.
  - A code is six decimal digits and expires ten minutes after it is made.
  - A code is redeemable while it is unused and its expiry is not yet past. The expiry instant itself still counts.
  - Redeeming spends the code. Verification and reset spend every unused code of that purpose; the second-factor check spends only the matching ones.
- **Likes** (`likes.dfy`). The like table is a set of (user, post) pairs, and each post keeps a stored counter. Liking and unliking are a two-state machine per pair, and the counter never drops below zero. This piece also covers the `is_liked` flag and the owner-only post delete.
- **Username preview** (`usernames.dfy`). The base name is the lower-cased first name plus the lower-cased last name. If that is taken, the preview falls back to the part of the e-mail address before the '@', then to a counter search. The search is an imperative loop, proved to stop after at most as many steps as there are taken names. It is proved to return the first free name.
- **Follows and private accounts** (`social.dfy`). The follow edges and pending requests are sets of ordered pairs. Follower and following counts are derived from them. Visibility rules say who may read a profile and whose posts are listed.
- **Device sessions** (`devices.dfy`). This covers logging out one device, logging out everywhere except the current session, and listing the active sessions.
- **Profile update** (`profile.dfy`). The request body is cut down to a whitelist of keys. What remains goes through the user serializer as a partial update.

`models.dfy` holds the records: one datatype per table, with the defaults the tables give new rows. `text.dfy` holds ASCII versions of the Python string operations the views use: `strip`, `lower`, `split('@')[0]` and `str(n)`. It also reads a digit string back as a number (`Text.DecimalValue`). No view does that; it exists only to state the round trip of `str(n)`.

Everything outside the backend is a parameter of the operation that needs it:

- the clock, as a whole number of seconds;
- the random draw behind a code, a number in [100000, 999999];
- whether a mail was delivered;
- whether the password backend accepted the credentials;
- whether an address is well-formed e-mail syntax;
- whether a new password passes the strength validators.

The database assigns the primary keys and the UUID session tokens. In the model these are plain numbers.

## Model

| member | source | states |
|---|---|---|
| Text.Strip | backend/api/views.py:306-308 | The result is the input with a whitespace run cut from each end: the input is a blank prefix, then the result, then a blank suffix. It is empty exactly when the input is all whitespace; otherwise it starts and ends with a non-space character, so no more than the surrounding whitespace is cut. |
| Text.Lower | backend/api/views.py:315-317 | Lower-casing keeps the length, turns each capital into its own small letter, and keeps every other character. |
| Text.BeforeFirst | backend/api/views.py:323 | `split(sep)[0]` is a prefix of the string, contains no separator, and is followed by the separator whenever it stops early. |
| Text.DecimalString | backend/api/views.py:29 | A number's decimal rendering is non-empty, all digits, and has no leading zero unless the number is zero. |
| Text.DecimalRoundTrip | backend/api/views.py:28-29 | Reading back the decimal rendering of a number gives that number. |
| Text.DecimalStringInjective | backend/api/views.py:329 | Distinct counters render as distinct digit strings. |
| Text.DecimalLength | backend/api/views.py:28-29 | A number between 10^k and 10^(k+1) - 1 renders as exactly k + 1 digits. |
| Models.FindUser | backend/api/serializers.py:36-39 | A lookup returns the first matching row, or reports that no row matches. |
| Models.FindUserUnique | backend/api/models.py:9 | When ids, usernames and e-mails are unique, the lookup returns the one row that matches. |
| Models.FindUserStable | backend/api/views.py:76-78 | A row already found stays found at the same position after the table grows, or after a change to columns the key does not read. |
| Models.FreshUserId | backend/api/serializers.py:20-25 | A newly saved account gets a primary key larger than every key in use. |
| Auth.GenerateOtpCode | backend/api/views.py:28-29 | A code is exactly six decimal digits, fits the six-character code column, has no leading zero, and its value is the random draw. |
| Auth.IssueOtp | backend/api/views.py:41-47 | Issuing appends one unused code row for the given user and purpose, created now and expiring exactly ten minutes later. Earlier rows are kept. |
| Auth.RedeemableWindow | backend/api/views.py:160-167 | The redemption query matches only an unused row of that user, purpose and code whose expiry is not past. A code redeemable at some instant was redeemable at every earlier one, and a table of used rows redeems nothing. |
| Auth.ConsumeAll | backend/api/views.py:79 | Every code of the user for the purpose becomes used; other columns and other rows are unchanged. |
| Auth.ConsumeRedeemable | backend/api/views.py:173 | Exactly the rows the redemption query matched become used; nothing else changes. |
| Auth.ConsumeAllEffect | backend/api/views.py:235 | Once consumed, no code of that user and purpose can be redeemed at any time. Other users' and purposes' codes are as redeemable as before. |
| Auth.ConsumeRedeemableEffect | backend/api/views.py:160-173 | After a second-factor redemption, the same code is refused at that instant and at every later one. |
| Auth.IssuedOtpRedeemable | backend/api/serializers.py:40-43 | A fresh code redeems with its own digits exactly until its expiry instant, inclusive. |
| Auth.CharInput | backend/api/serializers.py:14 | A character field accepts a value exactly when it is not blank and, once trimmed, holds no null character. It yields the value with surrounding whitespace removed. |
| Auth.CodeInput | backend/api/serializers.py:31 | The code field accepts exactly what the character field accepts, when at most six characters remain after trimming, and yields the trimmed text. |
| Auth.EmailInput | backend/api/serializers.py:30 | The e-mail field accepts exactly a well-formed address that the character field accepts, and yields the trimmed text. |
| Auth.Register | backend/api/views.py:36-47 | Registration succeeds exactly when the username and address are present and not taken and a password is given. On failure nothing changes, and exactly the fields at fault are named: a blank or taken username, a refused or taken address, a refused password. The new account stores the trimmed username, address and password, has no bio, and is active, unverified, private and without a second factor. Its register code is the one issued from the draw at that instant, expiring ten minutes later. |
| Auth.CheckCode | backend/api/serializers.py:33-45 | Field errors come first and are reported exactly: the e-mail field when the address is refused, the code field when the code is, plus any the caller adds. Then an unknown address is blamed on the e-mail field alone, then a missing redeemable code on the code field alone. The check passes exactly when the account exists and holds a redeemable code for the purpose. |
| Auth.VerifyRegistration | backend/api/views.py:73-80 | Verification succeeds exactly when the code check passes for a register code. Only that account becomes verified, and its unused register codes become used. |
| Auth.Login | backend/api/views.py:86-142 | Each answer is given exactly when its check is the first to fail: missing fields (400), then bad credentials (401), then an unverified account (401). Those three change nothing. A verified account with the second factor on gets a saved login code and no tokens; a failed mail is a 500 with the code still saved. Any other verified account gets tokens. |
| Auth.VerifySecondFactor | backend/api/views.py:148-192 | Each answer is given exactly when its check is the first to fail: missing fields (400), then an unknown user (404), then no redeemable login code for a known user (400). Otherwise the matching codes become used and tokens are issued. Every refusal leaves the store unchanged. |
| Auth.RequestReset | backend/api/views.py:198-222 | An unknown or malformed address is a field error with no change. Otherwise a reset code is saved; a failed mail is a 500 with the code kept. |
| Auth.ConfirmReset | backend/api/views.py:228-236 | Checks run in order: the code check for a reset code, then password strength. On success only that account's password is replaced, and its unused reset codes become used. |
| AuthProperties.DigitCodeInput | backend/api/serializers.py:31 | A digit string of one to six characters passes the code field unchanged. |
| AuthProperties.RegisterThenVerify | backend/api/serializers.py:40-43 | Registering and then entering the mailed code within ten minutes verifies the new account. |
| AuthProperties.VerifyRegistrationReplayFails | backend/api/views.py:76-79 | Repeating a successful verification is refused on the code field, at any time, with no change. |
| AuthProperties.LoginThenSecondFactor | backend/api/views.py:101-123 | A second-factor login followed by the mailed code within ten minutes yields tokens. |
| AuthProperties.SecondFactorReplayFails | backend/api/views.py:169-173 | Replaying a redeemed second-factor code, then or later, is refused with no change. |
| AuthProperties.RequestThenConfirmReset | backend/api/views.py:198-236 | Requesting a reset and confirming with the mailed code, in time and with an acceptable password, replaces the password. |
| AuthProperties.ResetNeedsResetCode | backend/api/serializers.py:74-77 | Without any reset code, no confirmation changes the store, whatever register or login codes exist. |
| AuthProperties.ResetCodeCheckedFirst | backend/api/serializers.py:74-81 | A bad reset code is reported on the code field whatever the password strength verdict. |
| AuthProperties.OwnersStayFound | backend/api/models.py:49 | Every code row's owner stays findable when the user table grows or changes in columns other than the key. |
| AuthProperties.IssueKeepsInvariant | backend/api/views.py:203-208 | Issuing a code to an account in the table keeps the store invariant. |
| AuthProperties.RegisterKeepsInvariant | backend/api/views.py:36-47 | Registration keeps the store invariant: unique users, and every code six digits, owned by a known account, expiring ten minutes after creation. |
| AuthProperties.VerifyRegistrationKeepsInvariant | backend/api/views.py:73-80 | Verification keeps the store invariant. |
| AuthProperties.LoginKeepsInvariant | backend/api/views.py:101-109 | Login keeps the store invariant. |
| AuthProperties.VerifySecondFactorKeepsInvariant | backend/api/views.py:160-173 | Second-factor verification keeps the store invariant. |
| AuthProperties.RequestResetKeepsInvariant | backend/api/views.py:198-208 | A reset request keeps the store invariant. |
| AuthProperties.ConfirmResetKeepsInvariant | backend/api/views.py:228-236 | A reset confirmation keeps the store invariant. |
| Likes.CreatePost | backend/api/views.py:245-246 | A new post belongs to the requester, starts with a counter of zero, and leaves other posts and the likes unchanged. |
| Likes.LikePost | backend/api/views.py:268-282 | An unknown post is a 404 and a repeated like is refused, both with no change. A first like adds the pair, raises only that post's counter by exactly one, and reports the new count. |
| Likes.UnlikePost | backend/api/views.py:284-299 | An unknown post is a 404 and a missing like is refused, both with no change. Otherwise the pair is removed and the counter lowered by one, but not below zero. |
| Likes.DeletePost | backend/api/views.py:254-262 | An unknown post is a 404. A non-owner's delete is refused with no change. The owner's delete removes the post and all of its likes. |
| Likes.CreatePostKeepsCounts | backend/api/models.py:63 | A new post keeps every stored counter equal to the number of likes of its post. |
| Likes.LikeKeepsCounts | backend/api/views.py:275-280 | Liking keeps every stored counter equal to the number of likes of its post. |
| Likes.UnlikeKeepsCounts | backend/api/views.py:291-297 | Unliking keeps the counters equal to the like counts, so the floor at zero never takes effect and a successful unlike lowers the count by exactly one. |
| Likes.DeleteKeepsCounts | backend/api/models.py:71 | Deleting a post cascades to its likes and keeps the other counters honest. |
| Likes.LikeThenUnlike | backend/api/views.py:268-299 | A like followed by the same user's unlike restores the exact feed, counter included. |
| Likes.LikeTwice | backend/api/views.py:275-282 | A second like by the same user is refused and leaves the feed as the first like left it. |
| Likes.IsLikedTracksLikes | backend/api/serializers.py:102-106 | The flag is false for an anonymous viewer. It becomes true after the viewer's like and false after the viewer's unlike, and no other viewer's or post's flag moves. |
| Likes.LikedPostCounted | backend/api/serializers.py:102-106 | With honest counters, a post shown as liked exists and shows at least one like, and a post with no likes is shown as liked to nobody. |
| Likes.NonOwnerCannotDelete | backend/api/views.py:259-262 | A non-owner's delete leaves the post, and the whole feed, in place. |
| Usernames.BaseName | backend/api/views.py:314-317 | The base name is the lower-cased first name, followed by the lower-cased last name when there is one. |
| Usernames.EmailPrefix | backend/api/views.py:323 | The prefix is empty without an '@'. Otherwise it is the '@'-free part that precedes the first '@'. |
| Usernames.CandidateInjective | backend/api/views.py:327-330 | Different counter values give different candidate names. |
| Usernames.FirstFreeUnique | backend/api/views.py:327-330 | There is at most one first free candidate. |
| Usernames.FirstFreeCandidate | backend/api/views.py:324-330 | The counter search returns a free candidate, every candidate before it is taken, and it takes at most as many steps as there are taken names. |
| Usernames.PreviewUsername | backend/api/views.py:305-332 | A blank first name is refused. The base name is returned when free, or when taken and the address has no prefix. Otherwise the first free name among prefix, prefix1, prefix2, … is returned. |
| Social.ReadProfile | backend/api/tests/test_logout.py:260-268 | The profile is returned exactly when the account exists and the viewer is its owner, or it is public, or the viewer follows it, and what is returned is the stored row of that account. Otherwise the reply is 403 for an existing account and 404 for an unknown one. |
| Social.VisiblePosts | backend/api/tests/test_logout.py:289-316 | A post is listed exactly when reading its author's profile would answer 200; where the read answers 403 or 404, the post is left out. |
| Social.ListingRule | backend/api/tests/test_logout.py:289-316 | A public author's posts are listed to everyone. A private author's posts are listed exactly to the author and the author's followers. An author missing from the user table is never listed. |
| Social.ViewRule | backend/api/tests/test_logout.py:260-287 | The owner may read an account, and anyone may read a public one. An anonymous viewer reads only public accounts. Another signed-in user reads a private account exactly when following it. Pending requests play no part. |
| Social.FollowersCount | backend/api/models.py:23-25 | The follower count is at most the number of edges, and zero exactly when no edge points at the user. |
| Social.FollowingCount | backend/api/models.py:27-29 | The following count is at most the number of edges, and zero exactly when no edge leaves the user. |
| Social.RequestFollow | backend/api/tests/test_logout.py:245-258 | Following a private account adds exactly one pending request. A public account is followed at once. Self-follows, repeats and unknown targets change nothing, and each refusal is named: unknown target first, then following oneself, then an existing edge, then a pending request. |
| Social.AcceptRequest | backend/api/tests/test_logout.py:270-280 | Accepting an existing request removes it and adds the requester-to-recipient edge. Anything else changes nothing; an unknown requester is answered as such, and a missing request otherwise. |
| Social.NewEdgeCounts | backend/api/models.py:22-29 | A new edge raises the followed user's follower count and the follower's following count by one, and no other count. |
| Social.AcceptCounts | backend/api/models.py:79-84 | Accepting raises the recipient's follower count and the requester's following count by one. |
| Social.RequestCounts | backend/api/models.py:89-96 | A pending request changes no count; only a direct follow does. |
| Social.RequestFollowKeepsConsistent | backend/api/models.py:83-84 | Following keeps the ledger free of self-edges and of pairs both followed and requested. |
| Social.AcceptKeepsConsistent | backend/api/models.py:93-94 | Accepting keeps the ledger consistent. |
| Social.RequestTwice | backend/api/models.py:94 | A second request for the same pair is refused, and the single pending request stays. |
| Social.RequestGrantsNothing | backend/api/tests/test_logout.py:245-268 | A pending request leaves the private profile closed to the requester. |
| Social.AcceptOpensProfile | backend/api/tests/test_logout.py:270-287 | After acceptance the requester can read the recipient's profile. |
| Social.AcceptOpensPosts | backend/api/tests/test_logout.py:289-316 | Before acceptance the requester sees none of the private account's posts; after acceptance, all of them. |
| Devices.AddDevice | backend/api/models.py:98-107 | A new session is added only when its key and session token are unused, so keys and tokens stay unique. It is appended as an active row with exactly the given key, owner, token and name. |
| Devices.LogoutDevice | backend/api/tests/test_logout.py:67-115 | Logout succeeds exactly when the caller owns an active device with that key, and only that device becomes inactive. An inactive, foreign or unknown device is a 404 with no change. |
| Devices.LogoutOthers | backend/api/tests/test_logout.py:117-145 | Every active device of the caller except the one holding the current session token becomes inactive; nothing else changes. |
| Devices.ActiveDevices | backend/api/tests/test_logout.py:157-165 | The listing holds exactly the caller's active devices, each as many times as the table holds it and no other row, so its length is the number of the caller's active rows. |
| Devices.NoActiveNoList | backend/api/tests/test_logout.py:167-175 | With no active device of the caller, the listing is empty. |
| Devices.LogoutOthersLeavesCurrent | backend/api/tests/test_logout.py:197-211 | After logging out elsewhere, the caller's listing holds only the current session, and holds it if it was active; other users' devices are untouched. |
| Devices.LogoutKeepsUnique | backend/api/models.py:100 | Logging out keeps device keys and session tokens unique. |
| Devices.LogoutEach | backend/api/tests/test_logout.py:213-239 | Successive logouts change only the active flags, and never reactivate a device. |
| Devices.LogoutSparesOthers | backend/api/tests/test_logout.py:105-115 | Logging out one key leaves the caller's other active devices signed in. |
| Devices.LogoutClearsKey | backend/api/tests/test_logout.py:67-78 | With unique keys, a successful logout leaves the device with that key inactive. |
| Devices.LogoutEachSucceeds | backend/api/tests/test_logout.py:213-243 | Logging out several distinct active devices of the caller one after another succeeds each time, and leaves all of them inactive. |
| Profile.WhitelistOnly | backend/api/views.py:346-347 | A body gives the same outcome as its whitelisted part, and adding any key outside bio, two_factor_enabled and biometric_enabled changes nothing. |
| Profile.ParseBio | backend/api/models.py:16 | The bio stores null as null, a string as its trimmed text, and an integer as its decimal text. It refuses a string holding a null character, booleans and other values. |
| Profile.ParsedBioClean | backend/api/models.py:16 | Whatever the bio field accepts is clean: it has no surrounding whitespace and holds no null character. |
| Profile.ParseFlag | backend/api/models.py:12 | The second-factor flag accepts booleans, 0 and 1, and the listed true and false spellings; it refuses null and everything else. |
| Profile.ApplyProfilePatch | backend/api/views.py:343-353 | A patch is refused exactly when a present field is invalid, and the invalid fields are named. Otherwise only the bio and second-factor flag are written, and only when present. Key, username, e-mail, verification, biometric flag and every other column keep their values. |
| Profile.OnlyAllowedKeysMatter | backend/api/views.py:346-347 | Two bodies that agree on the whitelisted keys give the same result. |
| Profile.PatchIdempotent | backend/api/views.py:349-352 | Sending an accepted patch again changes nothing more. |
| Profile.BioStoredStripped | backend/api/serializers.py:86-90 | A bio with surrounding whitespace gives the same outcome as its stripped text, and a string bio is accepted exactly when it holds no null character. |
| Profile.BioOnlyPatch | backend/api/views.py:347-352 | A body holding only a string bio writes exactly the stripped text and nothing else, or is refused on the bio alone when the text holds a null character. |
| Profile.PatchKeepsBioStripped | backend/api/serializers.py:86-90 | An accepted patch keeps the stored bio clean: no surrounding whitespace and no null character. |
| Profile.EchoIsNoop | backend/api/views.py:338-341 | Writing back the editable fields the profile shows is accepted and changes nothing, when the stored bio is clean. |
| Profile.EchoAfterPatchIsNoop | backend/api/views.py:338-353 | After any accepted patch, writing back the shown profile is accepted and changes nothing, when the stored bio was clean before the patch (no surrounding whitespace, no null character). |

## Left out

- Mail delivery, the debug `print` calls, password hashing, JWT issuance and refresh-token blacklisting are not modelled. Mail success is a boolean input. A password is stored unhashed, as the trimmed text the serializer yields. Tokens are a reply naming the account.
- Login: `authenticate` is the username lookup plus a boolean input saying whether the password backend accepted the credentials. That input also covers the backend's refusal of inactive accounts.
- Username and e-mail syntax validators, and the length limits of the username and other text columns, are not modelled. E-mail syntax is a boolean input; password strength (`validate_password`) is another.
- The follow, unfollow, accept, reject, cancel and status handlers, the profile-read view for other users, and the notification, comment and biometric views are not defined in backend/api/views.py. `Social.RequestFollow` and `Social.AcceptRequest` state what the follow tables and the assertions of backend/api/tests/test_logout.py require. Beyond that they follow one rule: a public account is followed at once, and following oneself, following twice or asking twice is refused with no change. Unfollow, reject, cancel, request status and notification creation are not modelled.
- Notifications: `Models.Notification` and `Models.NotificationKind` record the table and its five kinds. No modelled operation creates a notification, so no property about them is stated.
- The device views are not defined in backend/api/views.py. `Devices` states what the device table and the test assertions pin down. The 401 answers for a missing or bad token are authentication-layer behaviour and are not modelled.
- Device listing order is not modelled. The test expects the first-created device first, while the table's default order is newest first.
- Post listing privacy: the listing view's query has no privacy filter, but the test suite expects private accounts' posts to be hidden from non-followers. `Social.VisiblePosts` models the behaviour the test suite asserts, not the query as written.
- `biometric_enabled` passes the profile whitelist but is not a field of the user serializer, so the model never writes it. `profile_pic` is a serializer field but is dropped by the whitelist.
- Request fields read with `request.data.get(...)` are modelled as strings. In the program a JSON null first name, last name or e-mail in the username preview body makes `.strip()` raise, which is a 500 that `Usernames.PreviewUsername` does not produce. In login and second-factor verification a JSON number is handed on to `authenticate` and the database filter, which compare it as its text; the model receives that text directly.
- `Text.Lower` and `Text.Strip` work on ASCII only. Unicode case mapping and Unicode whitespace are not modelled.
- Concurrency is not modelled. Each request is one atomic step, so transaction boundaries, races between simultaneous likes or logouts, and the counter's read-modify-write are out of scope.
- Post images, captions beyond their text, creation times and post ordering are not modelled.
- The profile read view is modelled only through the editable fields it shows (`Profile.ShownFields`).
- Profile.ParseBio: a JSON float is refused here, while the framework's `CharField` would store its text. The accepted types follow Django REST framework's `CharField`, which is not part of this model.
- Profile.ParseFlag: the accepted spellings follow Django REST framework's `BooleanField`, which is not part of this model. A float equal to 0 or 1 is refused here, while the framework accepts it.

=== FILE: auth.dfy ===
/** Accounts and one-time codes: registration, e-mail verification, login
    with an optional second factor, and password reset.

    Everything outside the backend is a parameter: the clock (`now`, in
    seconds), the random draw behind a code, whether mail was delivered,
    whether the password backend accepted a password, whether an address
    is syntactically an e-mail address, and whether a new password passes
    the strength validators. */
module Auth {
  import opened Text
  import opened Models

  /** `timedelta(minutes=10)` in seconds. */
  const OtpLifetime: int := 10 * 60

  const OtpLow: int := 100000
  const OtpHigh: int := 999999

  /** What `random.randint(100000, 999999)` can return. */
  type OtpDraw = n: int | OtpLow <= n <= OtpHigh witness OtpLow

  /** `generate_otp_code`: six decimal digits whose value is the draw. */
  function GenerateOtpCode(draw: OtpDraw): (code: string)
    ensures |code| == 6 && |code| <= CodeMaxLength && AllDigits(code)
    ensures DecimalValue(code) == draw
    ensures code[0] != '0'
  {
    DecimalLength(draw, 5);
    DecimalRoundTrip(draw);
    DecimalString(draw)
  }

  /** The row `OTP.objects.create(...)` saves: unused, expiring ten
      minutes after it was made. */
  function IssueOtp(otps: seq<Otp>, user: UserId, purpose: Purpose, draw: OtpDraw, now: int): (r: seq<Otp>)
    ensures |r| == |otps| + 1 && r[..|otps|] == otps
    ensures r[|otps|].user == user && r[|otps|].purpose == purpose && !r[|otps|].isUsed
    ensures r[|otps|].expiresAt - r[|otps|].createdAt == OtpLifetime && r[|otps|].createdAt == now
    ensures AllDigits(r[|otps|].code) && DecimalValue(r[|otps|].code) == draw
  {
    otps + [Otp(user, GenerateOtpCode(draw), purpose, now, now + OtpLifetime, false)]
  }

  /** The query `filter(user=…, purpose=…, code=…, is_used=False,
      expires_at__gte=now)`: the expiry instant itself still counts. */
  predicate Redeemable(o: Otp, user: UserId, purpose: Purpose, code: string, now: int) {
    o.user == user && o.purpose == purpose && o.code == code && !o.isUsed && o.expiresAt >= now
  }

  predicate HasRedeemable(otps: seq<Otp>, user: UserId, purpose: Purpose, code: string, now: int) {
    exists i :: 0 <= i < |otps| && Redeemable(otps[i], user, purpose, code, now)
  }

  /** The redemption query through time: a code redeemable at some
      instant was redeemable at every earlier one, a table whose rows are
      all used redeems nothing, and a row counts only for its own user,
      purpose and digits. */
  lemma RedeemableWindow(otps: seq<Otp>, user: UserId, purpose: Purpose, code: string, now: int, earlier: int)
    requires earlier <= now
    ensures HasRedeemable(otps, user, purpose, code, now) ==> HasRedeemable(otps, user, purpose, code, earlier)
    ensures (forall k :: 0 <= k < |otps| ==> otps[k].isUsed) ==> !HasRedeemable(otps, user, purpose, code, now)
    ensures HasRedeemable(otps, user, purpose, code, now) ==>
      exists k :: 0 <= k < |otps| && otps[k].user == user && otps[k].purpose == purpose && otps[k].code == code
                  && !otps[k].isUsed && now <= otps[k].expiresAt
  {
    if HasRedeemable(otps, user, purpose, code, now) {
      var k :| 0 <= k < |otps| && Redeemable(otps[k], user, purpose, code, now);
      assert Redeemable(otps[k], user, purpose, code, earlier);
    }
  }

  /** Two rows are the same row except, perhaps, for the used flag. */
  predicate SameButUsed(a: Otp, b: Otp) {
    a.(isUsed := b.isUsed) == b
  }

  /** `filter(user=…, purpose=…, is_used=False).update(is_used=True)`: every
      code of that user for that purpose ends up used; nothing else moves. */
  function ConsumeAll(otps: seq<Otp>, user: UserId, purpose: Purpose): (r: seq<Otp>)
    ensures |r| == |otps|
    ensures forall i :: 0 <= i < |r| ==> SameButUsed(otps[i], r[i])
    ensures forall i :: 0 <= i < |r| ==>
      r[i].isUsed == (otps[i].isUsed || (otps[i].user == user && otps[i].purpose == purpose))
  {
    seq(|otps|, i requires 0 <= i < |otps| =>
      if otps[i].user == user && otps[i].purpose == purpose then otps[i].(isUsed := true) else otps[i])
  }

  /** `otp_qs.update(is_used=True)` for the very query that was checked:
      only the rows that were redeemable become used. */
  function ConsumeRedeemable(otps: seq<Otp>, user: UserId, purpose: Purpose, code: string, now: int): (r: seq<Otp>)
    ensures |r| == |otps|
    ensures forall i :: 0 <= i < |r| ==> SameButUsed(otps[i], r[i])
    ensures forall i :: 0 <= i < |r| ==>
      r[i].isUsed == (otps[i].isUsed || Redeemable(otps[i], user, purpose, code, now))
  {
    seq(|otps|, i requires 0 <= i < |otps| =>
      if Redeemable(otps[i], user, purpose, code, now) then otps[i].(isUsed := true) else otps[i])
  }

  /** Once the codes of a user and purpose are consumed, no code of that
      user and purpose can be redeemed again, at any time; codes of other
      users or purposes are as redeemable as before. */
  lemma ConsumeAllEffect(otps: seq<Otp>, user: UserId, purpose: Purpose)
    ensures forall code, t :: !HasRedeemable(ConsumeAll(otps, user, purpose), user, purpose, code, t)
    ensures forall u, p, code, t | u != user || p != purpose ::
      HasRedeemable(ConsumeAll(otps, user, purpose), u, p, code, t) <==> HasRedeemable(otps, u, p, code, t)
  {
    var r := ConsumeAll(otps, user, purpose);
    forall u, p, code, t | u != user || p != purpose
      ensures HasRedeemable(r, u, p, code, t) <==> HasRedeemable(otps, u, p, code, t)
    {
      if HasRedeemable(otps, u, p, code, t) {
        var i :| 0 <= i < |otps| && Redeemable(otps[i], u, p, code, t);
        assert Redeemable(r[i], u, p, code, t);
      }
    }
  }

  /** After the second-factor code is consumed, replaying it fails at that
      instant and at every later one. */
  lemma ConsumeRedeemableEffect(otps: seq<Otp>, user: UserId, purpose: Purpose, code: string, now: int)
    ensures forall t | t >= now :: !HasRedeemable(ConsumeRedeemable(otps, user, purpose, code, now), user, purpose, code, t)
  {
  }

  /** A freshly issued code can be redeemed with its own digits from the
      moment it is made until, and including, the moment it expires, and
      never afterwards (unless another code happens to match). */
  lemma IssuedOtpRedeemable(otps: seq<Otp>, user: UserId, purpose: Purpose, draw: OtpDraw, now: int, t: int)
    ensures var r := IssueOtp(otps, user, purpose, draw, now);
      Redeemable(r[|otps|], user, purpose, GenerateOtpCode(draw), t) <==> t <= now + OtpLifetime
  {
  }

  /** The serializer fields that can fail validation. */
  datatype Field = UsernameField | EmailField | CodeField | PasswordField

  datatype Response =
    | Registered              // 201 'Registered. Check email for OTP.'
    | AccountVerified         // 200 'Account verified.'
    | SecondFactorSent        // 200 '2FA enabled. Check email for OTP.'
    | Tokens(user: UserId)    // 200 access and refresh tokens for this user
    | ResetCodeSent           // 200 'Reset OTP sent.'
    | PasswordChanged         // 200 'Password reset successful.'
    | Invalid(fields: set<Field>)  // 400 serializer errors, keyed by field
    | MissingInput            // 400 'Username and ... required'
    | BadCode                 // 400 'Invalid or expired code'
    | BadCredentials          // 401 'Invalid credentials'
    | NotVerified             // 401 'Account not verified'
    | UserNotFound            // 404 'User not found'
    | MailFailed              // 500 'Failed to send ... email'

  datatype AuthDb = AuthDb(users: seq<User>, otps: seq<Otp>)

  datatype Reply = Reply(db: AuthDb, response: Response)

  /** What the store keeps true: the user table's keys are unique, and
      every code belongs to an account, is six digits, and expires ten
      minutes after it was made. */
  predicate Invariant(db: AuthDb) {
    && UniqueUsers(db.users)
    && forall k :: 0 <= k < |db.otps| ==>
         && |db.otps[k].code| == 6
         && AllDigits(db.otps[k].code)
         && db.otps[k].expiresAt == db.otps[k].createdAt + OtpLifetime
         && FindUser(db.users, ById(db.otps[k].user)).Some?
  }

  /** A serializer `CharField` with its default options: surrounding
      whitespace is trimmed, a blank value is an error, and so is a value
      holding a null character. */
  function CharInput(raw: string): (v: Option<string>)
    ensures v.Some? <==> !IsBlank(raw) && '\0' !in Strip(raw)
    ensures v.Some? ==> v.value == Strip(raw)
  {
    var s := Strip(raw);
    if s == [] || '\0' in s then None else Some(s)
  }

  /** The `code` field: a `CharField(max_length=6)`. */
  function CodeInput(raw: string): (v: Option<string>)
    ensures v.Some? ==> 0 < |v.value| <= CodeMaxLength && v.value == Strip(raw)
    ensures v.Some? <==> CharInput(raw).Some? && |CharInput(raw).value| <= CodeMaxLength
  {
    match CharInput(raw)
    case None => None
    case Some(s) => if |s| <= CodeMaxLength then Some(s) else None
  }

  /** An `EmailField`: a trimmed, non-blank value that the address syntax
      check (`wellFormed`) accepts. */
  function EmailInput(raw: string, wellFormed: bool): (v: Option<string>)
    ensures v.Some? <==> wellFormed && CharInput(raw).Some?
    ensures v.Some? ==> v.value == Strip(raw)
  {
    if wellFormed then CharInput(raw) else None
  }

  function FlagIf(bad: bool, f: Field): set<Field> {
    if bad then {f} else {}
  }

  /** `RegisterView.post`: the serializer refuses a blank or taken
      username, a blank, malformed or taken address, and a blank password;
      otherwise the account is saved and a registration code issued. A
      failed mail does not undo the registration. */
  function Register(db: AuthDb, rawUsername: string, rawEmail: string, emailWellFormed: bool,
                    rawPassword: string, draw: OtpDraw, now: int): (r: Reply)
    ensures r.response.Registered? || r.response.Invalid?
    ensures r.response.Invalid? ==> r.db == db && r.response.fields != {}
    ensures r.response.Invalid? ==>
      r.response.fields ==
        FlagIf(CharInput(rawUsername).None? || FindUser(db.users, ByUsername(CharInput(rawUsername).value)).Some?,
               UsernameField)
        + FlagIf(EmailInput(rawEmail, emailWellFormed).None?
                 || FindUser(db.users, ByEmail(EmailInput(rawEmail, emailWellFormed).value)).Some?, EmailField)
        + FlagIf(CharInput(rawPassword).None?, PasswordField)
    ensures r.response.Registered? <==>
      && CharInput(rawUsername).Some?
      && FindUser(db.users, ByUsername(CharInput(rawUsername).value)).None?
      && EmailInput(rawEmail, emailWellFormed).Some?
      && FindUser(db.users, ByEmail(EmailInput(rawEmail, emailWellFormed).value)).None?
      && CharInput(rawPassword).Some?
    ensures r.response.Registered? ==>
      && |r.db.users| == |db.users| + 1
      && r.db.users[..|db.users|] == db.users
      && var u := r.db.users[|db.users|];
         && u.username == Strip(rawUsername) && u.email == Strip(rawEmail)
         && u.password == Strip(rawPassword) && u.bio.None?
         && u.isActive && !u.isVerified && u.isPrivate && !u.twoFactorEnabled && !u.biometricEnabled
         && FindUser(db.users, ById(u.id)).None?
         && r.db.otps == IssueOtp(db.otps, u.id, ForRegister, draw, now)
  {
    var username := CharInput(rawUsername);
    var email := EmailInput(rawEmail, emailWellFormed);
    var password := CharInput(rawPassword);
    var errors :=
      FlagIf(username.None? || FindUser(db.users, ByUsername(username.value)).Some?, UsernameField)
      + FlagIf(email.None? || FindUser(db.users, ByEmail(email.value)).Some?, EmailField)
      + FlagIf(password.None?, PasswordField);
    if errors != {} then Reply(db, Invalid(errors))
    else
      var id := FreshUserId(db.users);
      var user := NewUser(id, username.value, email.value, password.value);
      Reply(AuthDb(db.users + [user], IssueOtp(db.otps, id, ForRegister, draw, now)), Registered)
  }

  /** The outcome of the shared code check of the two serializers that
      take an address and a code: the position of the account, or the
      fields to blame. */
  datatype Check = Pass(index: nat) | Fail(fields: set<Field>)

  /** `VerifyOTPSerializer.validate` and the first half of
      `ResetPasswordConfirmSerializer.validate`: field errors first (with
      any the caller adds), then an unknown address, reported on the
      e-mail field before the code is looked at, then a code that is not
      redeemable for this account and purpose. */
  function CheckCode(db: AuthDb, email: Option<string>, code: Option<string>, purpose: Purpose,
                     now: int, otherErrors: set<Field>): (c: Check)
    ensures c.Fail? ==> c.fields != {}
    ensures c.Pass? <==>
      && email.Some? && code.Some? && otherErrors == {}
      && var i := FindUser(db.users, ByEmail(email.value));
         i.Some? && HasRedeemable(db.otps, db.users[i.value].id, purpose, code.value, now)
    ensures c.Pass? ==> FindUser(db.users, ByEmail(email.value)) == Some(c.index)
    ensures email.Some? && code.Some? && otherErrors == {} && FindUser(db.users, ByEmail(email.value)).None?
            ==> c == Fail({EmailField})
    ensures c.Pass? ==> c.index < |db.users|
    ensures email.None? || code.None? || otherErrors != {} ==>
      c == Fail(FlagIf(email.None?, EmailField) + FlagIf(code.None?, CodeField) + otherErrors)
    ensures email.Some? && code.Some? && otherErrors == {} && FindUser(db.users, ByEmail(email.value)).Some?
            && !HasRedeemable(db.otps, db.users[FindUser(db.users, ByEmail(email.value)).value].id, purpose, code.value, now)
            ==> c == Fail({CodeField})
  {
    var errors := FlagIf(email.None?, EmailField) + FlagIf(code.None?, CodeField) + otherErrors;
    if errors != {} then Fail(errors)
    else match FindUser(db.users, ByEmail(email.value))
      case None => Fail({EmailField})
      case Some(i) =>
        if HasRedeemable(db.otps, db.users[i].id, purpose, code.value, now) then Pass(i) else Fail({CodeField})
  }

  /** `VerifyOTPView.post`: once the registration code checks out the
      account is marked verified and every unused registration code of it
      is spent; otherwise nothing changes. */
  function VerifyRegistration(db: AuthDb, rawEmail: string, emailWellFormed: bool,
                              rawCode: string, now: int): (r: Reply)
    ensures r.response.AccountVerified? || r.response.Invalid?
    ensures r.response.Invalid? ==> r.db == db
    ensures r.response.AccountVerified? <==>
      CheckCode(db, EmailInput(rawEmail, emailWellFormed), CodeInput(rawCode), ForRegister, now, {}).Pass?
    ensures r.response.AccountVerified? ==>
      && var i := CheckCode(db, EmailInput(rawEmail, emailWellFormed), CodeInput(rawCode), ForRegister, now, {}).index;
         && |r.db.users| == |db.users|
         && r.db.users[i] == db.users[i].(isVerified := true)
         && (forall j :: 0 <= j < |db.users| && j != i ==> r.db.users[j] == db.users[j])
         && r.db.otps == ConsumeAll(db.otps, db.users[i].id, ForRegister)
  {
    match CheckCode(db, EmailInput(rawEmail, emailWellFormed), CodeInput(rawCode), ForRegister, now, {})
    case Fail(fields) => Reply(db, Invalid(fields))
    case Pass(i) =>
      Reply(AuthDb(db.users[i := db.users[i].(isVerified := true)], ConsumeAll(db.otps, db.users[i].id, ForRegister)),
            AccountVerified)
  }

  /** `LoginView.post`, in the order it checks: both fields present
      (Python's falsy test; an absent field is the empty string here),
      credentials, verification, then the second factor. With the second
      factor on, a login code is saved before the mail is attempted, so it
      stays saved when the mail fails; no tokens are handed out. */
  function Login(db: AuthDb, username: string, password: string, passwordAccepted: bool,
                 draw: OtpDraw, now: int, mailDelivered: bool): (r: Reply)
    ensures (username == [] || password == []) ==> r == Reply(db, MissingInput)
    ensures r.response == MissingInput <==> username == [] || password == []
    ensures r.response == BadCredentials <==>
      username != [] && password != [] && (FindUser(db.users, ByUsername(username)).None? || !passwordAccepted)
    ensures r.response.Tokens? <==>
      && username != [] && password != [] && passwordAccepted
      && var i := FindUser(db.users, ByUsername(username));
         i.Some? && db.users[i.value].isVerified && !db.users[i.value].twoFactorEnabled
    ensures r.response.Tokens? ==> r.db == db && db.users[FindUser(db.users, ByUsername(username)).value].id == r.response.user
    ensures r.response == SecondFactorSent || r.response == MailFailed ==>
      && FindUser(db.users, ByUsername(username)).Some?
      && var u := db.users[FindUser(db.users, ByUsername(username)).value];
         && u.isVerified && u.twoFactorEnabled
         && r.db == db.(otps := IssueOtp(db.otps, u.id, ForLogin, draw, now))
         && (r.response == MailFailed <==> !mailDelivered)
    ensures r.response == NotVerified <==>
      && username != [] && password != [] && passwordAccepted
      && var i := FindUser(db.users, ByUsername(username));
         i.Some? && !db.users[i.value].isVerified
    ensures (r.response == SecondFactorSent || r.response == MailFailed) <==>
      && username != [] && password != [] && passwordAccepted
      && var i := FindUser(db.users, ByUsername(username));
         i.Some? && db.users[i.value].isVerified && db.users[i.value].twoFactorEnabled
    ensures r.response in {MissingInput, BadCredentials, NotVerified} ==> r.db == db
    ensures r.response in {MissingInput, BadCredentials, NotVerified, SecondFactorSent, MailFailed} || r.response.Tokens?
  {
    if username == [] || password == [] then Reply(db, MissingInput)
    else match FindUser(db.users, ByUsername(username))
      case None => Reply(db, BadCredentials)
      case Some(i) =>
        var u := db.users[i];
        if !passwordAccepted then Reply(db, BadCredentials)
        else if !u.isVerified then Reply(db, NotVerified)
        else if u.twoFactorEnabled then
          Reply(db.(otps := IssueOtp(db.otps, u.id, ForLogin, draw, now)),
                if mailDelivered then SecondFactorSent else MailFailed)
        else Reply(db, Tokens(u.id))
  }

  /** `Verify2FAView.post`: both fields present, then a known username
      (404 otherwise), then an unused, unexpired login code equal to the
      one given; the matching codes become used and tokens are issued. */
  function VerifySecondFactor(db: AuthDb, username: string, code: string, now: int): (r: Reply)
    ensures (username == [] || code == []) ==> r == Reply(db, MissingInput)
    ensures r.response == MissingInput <==> username == [] || code == []
    ensures username != [] && code != [] && FindUser(db.users, ByUsername(username)).None? ==>
      r == Reply(db, UserNotFound)
    ensures r.response == UserNotFound <==>
      username != [] && code != [] && FindUser(db.users, ByUsername(username)).None?
    ensures r.response == BadCode <==>
      && username != [] && code != []
      && var i := FindUser(db.users, ByUsername(username));
         i.Some? && !HasRedeemable(db.otps, db.users[i.value].id, ForLogin, code, now)
    ensures r.response.Tokens? <==>
      && username != [] && code != []
      && var i := FindUser(db.users, ByUsername(username));
         i.Some? && HasRedeemable(db.otps, db.users[i.value].id, ForLogin, code, now)
    ensures r.response.Tokens? ==>
      && var i := FindUser(db.users, ByUsername(username)).value;
         && r.response.user == db.users[i].id
         && r == Reply(db.(otps := ConsumeRedeemable(db.otps, db.users[i].id, ForLogin, code, now)), Tokens(db.users[i].id))
    ensures !r.response.Tokens? ==> r.db == db && r.response in {MissingInput, UserNotFound, BadCode}
  {
    if username == [] || code == [] then Reply(db, MissingInput)
    else match FindUser(db.users, ByUsername(username))
      case None => Reply(db, UserNotFound)
      case Some(i) =>
        var uid := db.users[i].id;
        if !HasRedeemable(db.otps, uid, ForLogin, code, now) then Reply(db, BadCode)
        else Reply(db.(otps := ConsumeRedeemable(db.otps, uid, ForLogin, code, now)), Tokens(uid))
  }

  /** `ResetPasswordRequestView.post`: a known address gets a reset code,
      saved before the mail is attempted; a failed mail is a 500 but the
      code stays saved. */
  function RequestReset(db: AuthDb, rawEmail: string, emailWellFormed: bool,
                        draw: OtpDraw, now: int, mailDelivered: bool): (r: Reply)
    ensures r.response in {Invalid({EmailField}), ResetCodeSent, MailFailed}
    ensures r.response.Invalid? <==>
      EmailInput(rawEmail, emailWellFormed).None?
      || FindUser(db.users, ByEmail(EmailInput(rawEmail, emailWellFormed).value)).None?
    ensures r.response.Invalid? ==> r.db == db
    ensures !r.response.Invalid? ==>
      && var u := db.users[FindUser(db.users, ByEmail(Strip(rawEmail))).value];
         && r.db == db.(otps := IssueOtp(db.otps, u.id, ForReset, draw, now))
         && (r.response == MailFailed <==> !mailDelivered)
  {
    match EmailInput(rawEmail, emailWellFormed)
    case None => Reply(db, Invalid({EmailField}))
    case Some(email) =>
      match FindUser(db.users, ByEmail(email))
      case None => Reply(db, Invalid({EmailField}))
      case Some(i) =>
        Reply(db.(otps := IssueOtp(db.otps, db.users[i].id, ForReset, draw, now)),
              if mailDelivered then ResetCodeSent else MailFailed)
  }

  /** `ResetPasswordConfirmView.post` with its serializer: the code check
      with only a reset code accepted, and only after it the password
      strength check; on success the password is replaced and every unused
      reset code of the account is spent. */
  function ConfirmReset(db: AuthDb, rawEmail: string, emailWellFormed: bool, rawCode: string,
                        rawPassword: string, passwordStrong: bool, now: int): (r: Reply)
    ensures r.response.PasswordChanged? || r.response.Invalid?
    ensures r.response.Invalid? ==> r.db == db
    ensures var c := CheckCode(db, EmailInput(rawEmail, emailWellFormed), CodeInput(rawCode), ForReset, now,
                               FlagIf(CharInput(rawPassword).None?, PasswordField));
      && (c.Fail? ==> r.response == Invalid(c.fields))
      && (c.Pass? && !passwordStrong ==> r.response == Invalid({PasswordField}))
      && (r.response.PasswordChanged? <==> c.Pass? && passwordStrong)
      && (r.response.PasswordChanged? ==>
            && r.db.users == db.users[c.index := db.users[c.index].(password := Strip(rawPassword))]
            && r.db.otps == ConsumeAll(db.otps, db.users[c.index].id, ForReset))
  {
    var password := CharInput(rawPassword);
    match CheckCode(db, EmailInput(rawEmail, emailWellFormed), CodeInput(rawCode), ForReset, now,
                    FlagIf(password.None?, PasswordField))
    case Fail(fields) => Reply(db, Invalid(fields))
    case Pass(i) =>
      if !passwordStrong then Reply(db, Invalid({PasswordField}))
      else Reply(AuthDb(db.users[i := db.users[i].(password := password.value)], ConsumeAll(db.otps, db.users[i].id, ForReset)),
                 PasswordChanged)
  }
}

module AuthProperties {
  import opened Text
  import opened Models
  import opened Auth

  /** A code of digits, short enough for the column, passes the `code`
      field unchanged. */
  lemma DigitCodeInput(code: string)
    requires AllDigits(code) && 0 < |code| <= CodeMaxLength
    ensures CodeInput(code) == Some(code)
  {
    forall i | 0 <= i < |code| ensures !IsSpace(code[i]) && code[i] != '\0' {
      assert IsDigit(code[i]);
    }
    StripNoSpace(code);
    assert !IsSpace(code[0]);
  }

  /** Registering and then typing in the mailed code, no later than ten
      minutes after, verifies the new account. */
  lemma RegisterThenVerify(db: AuthDb, rawUsername: string, rawEmail: string, emailWellFormed: bool,
                           rawPassword: string, draw: OtpDraw, now: int, t: int)
    requires Register(db, rawUsername, rawEmail, emailWellFormed, rawPassword, draw, now).response == Registered
    requires t <= now + OtpLifetime
    ensures var db1 := Register(db, rawUsername, rawEmail, emailWellFormed, rawPassword, draw, now).db;
      var r := VerifyRegistration(db1, rawEmail, emailWellFormed, GenerateOtpCode(draw), t);
      r.response == AccountVerified && r.db.users[|db.users|].isVerified
  {
    var db1 := Register(db, rawUsername, rawEmail, emailWellFormed, rawPassword, draw, now).db;
    var n := |db.users|;
    var email := EmailInput(rawEmail, emailWellFormed).value;
    FindUserFirst(db1.users, ByEmail(email), n);
    DigitCodeInput(GenerateOtpCode(draw));
    assert Redeemable(db1.otps[|db.otps|], db1.users[n].id, ForRegister, GenerateOtpCode(draw), t);
  }

  /** Verifying spends the code: the same request again fails on the
      code field, at any time. */
  lemma VerifyRegistrationReplayFails(db: AuthDb, rawEmail: string, emailWellFormed: bool,
                                      rawCode: string, now: int, later: int)
    requires VerifyRegistration(db, rawEmail, emailWellFormed, rawCode, now).response == AccountVerified
    ensures var db1 := VerifyRegistration(db, rawEmail, emailWellFormed, rawCode, now).db;
      VerifyRegistration(db1, rawEmail, emailWellFormed, rawCode, later) == Reply(db1, Invalid({CodeField}))
  {
    var db1 := VerifyRegistration(db, rawEmail, emailWellFormed, rawCode, now).db;
    var email := EmailInput(rawEmail, emailWellFormed).value;
    var i := FindUser(db.users, ByEmail(email)).value;
    FindUserStable(db.users, db1.users, ByEmail(email));
    ConsumeAllEffect(db.otps, db.users[i].id, ForRegister);
  }

  /** With the second factor on, a login followed by the mailed code,
      within ten minutes, hands out the tokens. */
  lemma LoginThenSecondFactor(db: AuthDb, username: string, password: string, passwordAccepted: bool,
                              draw: OtpDraw, now: int, mailDelivered: bool, t: int)
    requires Login(db, username, password, passwordAccepted, draw, now, mailDelivered).response == SecondFactorSent
    requires t <= now + OtpLifetime
    ensures var db1 := Login(db, username, password, passwordAccepted, draw, now, mailDelivered).db;
      VerifySecondFactor(db1, username, GenerateOtpCode(draw), t).response.Tokens?
  {
    var db1 := Login(db, username, password, passwordAccepted, draw, now, mailDelivered).db;
    var i := FindUser(db.users, ByUsername(username)).value;
    assert Redeemable(db1.otps[|db.otps|], db.users[i].id, ForLogin, GenerateOtpCode(draw), t);
  }

  /** A second-factor code works once: replaying it, then or later, is
      refused and changes nothing. */
  lemma SecondFactorReplayFails(db: AuthDb, username: string, code: string, now: int, later: int)
    requires VerifySecondFactor(db, username, code, now).response.Tokens?
    requires later >= now
    ensures var db1 := VerifySecondFactor(db, username, code, now).db;
      VerifySecondFactor(db1, username, code, later) == Reply(db1, BadCode)
  {
    var i := FindUser(db.users, ByUsername(username)).value;
    ConsumeRedeemableEffect(db.otps, db.users[i].id, ForLogin, code, now);
  }

  /** Asking for a reset and then confirming with the mailed code, within
      ten minutes and with an acceptable password, replaces the password. */
  lemma RequestThenConfirmReset(db: AuthDb, rawEmail: string, emailWellFormed: bool, draw: OtpDraw,
                                now: int, mailDelivered: bool, rawPassword: string, t: int)
    requires RequestReset(db, rawEmail, emailWellFormed, draw, now, mailDelivered).response == ResetCodeSent
    requires CharInput(rawPassword).Some?
    requires t <= now + OtpLifetime
    ensures var db1 := RequestReset(db, rawEmail, emailWellFormed, draw, now, mailDelivered).db;
      var r := ConfirmReset(db1, rawEmail, emailWellFormed, GenerateOtpCode(draw), rawPassword, true, t);
      var i := FindUser(db.users, ByEmail(Strip(rawEmail))).value;
      r.response == PasswordChanged && r.db.users[i].password == Strip(rawPassword)
  {
    var db1 := RequestReset(db, rawEmail, emailWellFormed, draw, now, mailDelivered).db;
    var email := EmailInput(rawEmail, emailWellFormed);
    var i := FindUser(db.users, ByEmail(email.value)).value;
    var code := GenerateOtpCode(draw);
    DigitCodeInput(code);
    assert db1.users == db.users;
    assert Redeemable(db1.otps[|db.otps|], db.users[i].id, ForReset, code, t);
    assert HasRedeemable(db1.otps, db.users[i].id, ForReset, code, t);
    var passwordErrors := FlagIf(CharInput(rawPassword).None?, PasswordField);
    assert passwordErrors == {};
    var c := CheckCode(db1, email, CodeInput(code), ForReset, t, passwordErrors);
    assert c == Pass(i);
  }

  /** Only a reset code authorises a reset: while no reset code exists, a
      confirmation never changes the password, whatever registration or
      login codes the account holds. */
  lemma ResetNeedsResetCode(db: AuthDb, rawEmail: string, emailWellFormed: bool, rawCode: string,
                            rawPassword: string, passwordStrong: bool, now: int)
    requires forall k :: 0 <= k < |db.otps| ==> db.otps[k].purpose != ForReset
    ensures ConfirmReset(db, rawEmail, emailWellFormed, rawCode, rawPassword, passwordStrong, now).db == db
  {
  }

  /** A bad reset code is reported as such before the password strength is
      considered: the answer does not depend on the strength verdict. */
  lemma ResetCodeCheckedFirst(db: AuthDb, rawEmail: string, emailWellFormed: bool, rawCode: string,
                              rawPassword: string, now: int)
    requires EmailInput(rawEmail, emailWellFormed).Some? && CodeInput(rawCode).Some? && CharInput(rawPassword).Some?
    requires var i := FindUser(db.users, ByEmail(Strip(rawEmail)));
      i.Some? && !HasRedeemable(db.otps, db.users[i.value].id, ForReset, Strip(rawCode), now)
    ensures ConfirmReset(db, rawEmail, emailWellFormed, rawCode, rawPassword, false, now).response == Invalid({CodeField})
    ensures ConfirmReset(db, rawEmail, emailWellFormed, rawCode, rawPassword, true, now).response == Invalid({CodeField})
  {
  }

  /** Code rows keep their owner reachable when the user table grows or
      changes in columns other than the primary key. */
  lemma OwnersStayFound(db: AuthDb, users': seq<User>, otps': seq<Otp>)
    requires Invariant(db)
    requires UniqueUsers(users')
    requires |db.users| <= |users'|
    requires forall j :: 0 <= j < |db.users| ==> users'[j].id == db.users[j].id
    requires |otps'| == |db.otps|
    requires forall k :: 0 <= k < |otps'| ==> SameButUsed(db.otps[k], otps'[k])
    ensures Invariant(AuthDb(users', otps'))
  {
    forall k | 0 <= k < |otps'|
      ensures FindUser(users', ById(otps'[k].user)).Some?
    {
      assert otps'[k].user == db.otps[k].user;
      FindUserStable(db.users, users', ById(db.otps[k].user));
    }
  }

  /** A new account whose key is larger than every key in use, and whose
      username and address are not taken, keeps the user table unique. */
  lemma AppendUserKeepsUnique(users: seq<User>, u: User)
    requires UniqueUsers(users)
    requires forall j :: 0 <= j < |users| ==> users[j].id < u.id
    requires FindUser(users, ByUsername(u.username)).None?
    requires FindUser(users, ByEmail(u.email)).None?
    ensures UniqueUsers(users + [u])
  {
    var users' := users + [u];
    forall i, j | 0 <= i < j < |users'|
      ensures users'[i].id != users'[j].id && users'[i].username != users'[j].username
              && users'[i].email != users'[j].email
    {
      if j == |users| {
        assert !Matches(users[i], ByUsername(u.username));
        assert !Matches(users[i], ByEmail(u.email));
      }
    }
  }

  /** Changing a row in columns other than its keys keeps the user table
      unique. */
  lemma UpdateUserKeepsUnique(users: seq<User>, i: nat, u: User)
    requires UniqueUsers(users)
    requires i < |users|
    requires u.id == users[i].id && u.username == users[i].username && u.email == users[i].email
    ensures UniqueUsers(users[i := u])
  {
  }

  /** A code issued, as every view issues it, to an account in the table
      keeps the store invariant. */
  lemma IssueKeepsInvariant(db: AuthDb, i: nat, purpose: Purpose, draw: OtpDraw, now: int)
    requires Invariant(db)
    requires i < |db.users|
    ensures Invariant(db.(otps := IssueOtp(db.otps, db.users[i].id, purpose, draw, now)))
  {
    var otps' := IssueOtp(db.otps, db.users[i].id, purpose, draw, now);
    assert otps'[|db.otps|].user == db.users[i].id;
    assert Matches(db.users[i], ById(db.users[i].id));
    assert FindUser(db.users, ById(db.users[i].id)).Some?;
    forall k | 0 <= k < |otps'|
      ensures FindUser(db.users, ById(otps'[k].user)).Some?
    {
      if k < |db.otps| {
        assert otps'[k] == db.otps[k];
      }
    }
  }

  lemma RegisterKeepsInvariant(db: AuthDb, rawUsername: string, rawEmail: string, emailWellFormed: bool,
                               rawPassword: string, draw: OtpDraw, now: int)
    requires Invariant(db)
    ensures Invariant(Register(db, rawUsername, rawEmail, emailWellFormed, rawPassword, draw, now).db)
  {
    var r := Register(db, rawUsername, rawEmail, emailWellFormed, rawPassword, draw, now);
    if r.response == Registered {
      var n := |db.users|;
      var u := r.db.users[n];
      assert r.db.users == db.users + [u];
      AppendUserKeepsUnique(db.users, u);
      var db1 := AuthDb(r.db.users, db.otps);
      OwnersStayFound(db, db1.users, db1.otps);
      IssueKeepsInvariant(db1, n, ForRegister, draw, now);
      assert r.db == db1.(otps := IssueOtp(db.otps, u.id, ForRegister, draw, now));
    }
  }

  /** Changing one account in columns other than its keys and spending
      some of its codes keeps the store invariant. */
  lemma UpdateAndConsumeKeepsInvariant(db: AuthDb, i: nat, u: User, purpose: Purpose)
    requires Invariant(db)
    requires i < |db.users|
    requires u.id == db.users[i].id && u.username == db.users[i].username && u.email == db.users[i].email
    ensures Invariant(AuthDb(db.users[i := u], ConsumeAll(db.otps, db.users[i].id, purpose)))
  {
    UpdateUserKeepsUnique(db.users, i, u);
    OwnersStayFound(db, db.users[i := u], ConsumeAll(db.otps, db.users[i].id, purpose));
  }

  lemma VerifyRegistrationKeepsInvariant(db: AuthDb, rawEmail: string, emailWellFormed: bool,
                                         rawCode: string, now: int)
    requires Invariant(db)
    ensures Invariant(VerifyRegistration(db, rawEmail, emailWellFormed, rawCode, now).db)
  {
    var r := VerifyRegistration(db, rawEmail, emailWellFormed, rawCode, now);
    if r.response == AccountVerified {
      var i := CheckCode(db, EmailInput(rawEmail, emailWellFormed), CodeInput(rawCode), ForRegister, now, {}).index;
      var u := db.users[i].(isVerified := true);
      assert r.db == AuthDb(db.users[i := u], ConsumeAll(db.otps, db.users[i].id, ForRegister));
      UpdateAndConsumeKeepsInvariant(db, i, u, ForRegister);
    }
  }

  lemma LoginKeepsInvariant(db: AuthDb, username: string, password: string, passwordAccepted: bool,
                            draw: OtpDraw, now: int, mailDelivered: bool)
    requires Invariant(db)
    ensures Invariant(Login(db, username, password, passwordAccepted, draw, now, mailDelivered).db)
  {
    var r := Login(db, username, password, passwordAccepted, draw, now, mailDelivered);
    if r.response == SecondFactorSent || r.response == MailFailed {
      IssueKeepsInvariant(db, FindUser(db.users, ByUsername(username)).value, ForLogin, draw, now);
    }
  }

  lemma VerifySecondFactorKeepsInvariant(db: AuthDb, username: string, code: string, now: int)
    requires Invariant(db)
    ensures Invariant(VerifySecondFactor(db, username, code, now).db)
  {
    var r := VerifySecondFactor(db, username, code, now);
    OwnersStayFound(db, r.db.users, r.db.otps);
  }

  lemma RequestResetKeepsInvariant(db: AuthDb, rawEmail: string, emailWellFormed: bool,
                                   draw: OtpDraw, now: int, mailDelivered: bool)
    requires Invariant(db)
    ensures Invariant(RequestReset(db, rawEmail, emailWellFormed, draw, now, mailDelivered).db)
  {
    var r := RequestReset(db, rawEmail, emailWellFormed, draw, now, mailDelivered);
    if !r.response.Invalid? {
      IssueKeepsInvariant(db, FindUser(db.users, ByEmail(Strip(rawEmail))).value, ForReset, draw, now);
    }
  }

  lemma ConfirmResetKeepsInvariant(db: AuthDb, rawEmail: string, emailWellFormed: bool, rawCode: string,
                                   rawPassword: string, passwordStrong: bool, now: int)
    requires Invariant(db)
    ensures Invariant(ConfirmReset(db, rawEmail, emailWellFormed, rawCode, rawPassword, passwordStrong, now).db)
  {
    var r := ConfirmReset(db, rawEmail, emailWellFormed, rawCode, rawPassword, passwordStrong, now);
    if r.response == PasswordChanged {
      var c := CheckCode(db, EmailInput(rawEmail, emailWellFormed), CodeInput(rawCode), ForReset, now,
                         FlagIf(CharInput(rawPassword).None?, PasswordField));
      var i := c.index;
      var u := db.users[i].(password := Strip(rawPassword));
      assert r.db == AuthDb(db.users[i := u], ConsumeAll(db.otps, db.users[i].id, ForReset));
      UpdateAndConsumeKeepsInvariant(db, i, u, ForReset);
    }
  }
}

=== FILE: devices.dfy ===
/** Device sessions: signing one device out, signing out everywhere but
    the current session, and listing the active sessions.

    The device views are not defined in backend/api/views.py. What is
    stated here is what the `Device` table and the assertions of
    backend/api/tests/test_logout.py pin down: a logout acts only on the
    caller's own active device, logging out elsewhere spares the current
    session, and the list shows the caller's active sessions, each as
    often as the table holds it (once, when keys are unique).
    Refresh-token blacklisting is not modelled. */
module Devices {
  import opened Models

  /** The device table's primary key and its unique session token. */
  predicate UniqueDevices(devices: seq<Device>) {
    forall i, j :: 0 <= i < j < |devices| ==>
      devices[i].id != devices[j].id && devices[i].sessionToken != devices[j].sessionToken
  }

  predicate TokenInUse(devices: seq<Device>, token: nat) {
    exists i :: 0 <= i < |devices| && devices[i].sessionToken == token
  }

  predicate IdInUse(devices: seq<Device>, id: DeviceId) {
    exists i :: 0 <= i < |devices| && devices[i].id == id
  }

  datatype AddReply = DeviceAdded | DuplicateKey

  /** Saving a new session row: it starts active, and a key or token that
      is already taken is refused by the table's constraints. */
  function AddDevice(devices: seq<Device>, id: DeviceId, owner: UserId, token: nat, name: string)
    : (r: (seq<Device>, AddReply))
    ensures r.1 == DeviceAdded <==> !IdInUse(devices, id) && !TokenInUse(devices, token)
    ensures r.1 == DuplicateKey ==> r.0 == devices
    ensures r.1 == DeviceAdded ==> r.0 == devices + [Device(id, owner, token, name, true)]
    ensures UniqueDevices(devices) ==> UniqueDevices(r.0)
  {
    if IdInUse(devices, id) || TokenInUse(devices, token) then (devices, DuplicateKey)
    else (devices + [Device(id, owner, token, name, isActive := true)], DeviceAdded)
  }

  /** The row a single logout acts on: the caller's own active device with
      that key. */
  predicate Signed(d: Device, caller: UserId, deviceId: DeviceId) {
    d.id == deviceId && d.owner == caller && d.isActive
  }

  /** Some row of the table is the caller's active device with that key. */
  predicate HasSigned(devices: seq<Device>, caller: UserId, deviceId: DeviceId) {
    exists i :: 0 <= i < |devices| && Signed(devices[i], caller, deviceId)
  }

  datatype LogoutReply = LoggedOut | DeviceNotFound

  /** Logging out one device: the caller's active device with that key
      becomes inactive; a device that is inactive, belongs to someone else
      or does not exist is a 404 and nothing changes. */
  function LogoutDevice(devices: seq<Device>, caller: UserId, deviceId: DeviceId): (r: (seq<Device>, LogoutReply))
    ensures r.1 == LoggedOut <==> HasSigned(devices, caller, deviceId)
    ensures r.1 == DeviceNotFound ==> r.0 == devices
    ensures |r.0| == |devices|
    ensures forall i :: 0 <= i < |devices| ==>
      r.0[i] == if Signed(devices[i], caller, deviceId) then devices[i].(isActive := false) else devices[i]
  {
    if HasSigned(devices, caller, deviceId) then
      (seq(|devices|, i requires 0 <= i < |devices| =>
         if Signed(devices[i], caller, deviceId) then devices[i].(isActive := false) else devices[i]),
       LoggedOut)
    else (devices, DeviceNotFound)
  }

  /** Logging out everywhere: every active device of the caller except the
      one holding the current session token (when one is given) becomes
      inactive. This succeeds even when there is nothing to log out. */
  function LogoutOthers(devices: seq<Device>, caller: UserId, current: Option<nat>): (r: seq<Device>)
    ensures |r| == |devices|
    ensures forall i :: 0 <= i < |r| ==> r[i] == devices[i].(isActive := r[i].isActive)
    ensures forall i :: 0 <= i < |r| ==>
      r[i].isActive == (devices[i].isActive && (devices[i].owner != caller || current == Some(devices[i].sessionToken)))
  {
    seq(|devices|, i requires 0 <= i < |devices| =>
      if devices[i].owner == caller && current != Some(devices[i].sessionToken)
      then devices[i].(isActive := false) else devices[i])
  }

  /** The session list: the caller's active devices, in table order (the
      listing's own order is not modelled). */
  function ActiveDevices(devices: seq<Device>, caller: UserId): (r: seq<Device>)
    ensures |r| <= |devices|
    ensures forall d :: d in r <==> d in devices && d.owner == caller && d.isActive
    ensures forall d :: multiset(r)[d] == if d.owner == caller && d.isActive then multiset(devices)[d] else 0
  {
    if |devices| == 0 then []
    else
      var rest := ActiveDevices(devices[1..], caller);
      assert devices == [devices[0]] + devices[1..];
      if devices[0].owner == caller && devices[0].isActive then [devices[0]] + rest else rest
  }

  /** With no active device left to the caller, the list is empty. */
  lemma NoActiveNoList(devices: seq<Device>, caller: UserId)
    requires forall i :: 0 <= i < |devices| && devices[i].owner == caller ==> !devices[i].isActive
    ensures ActiveDevices(devices, caller) == []
  {
  }

  /** After logging out everywhere, the caller's list holds at most the
      device of the current session, and that one if it was active;
      without a current token, the list is empty. Other users' sessions
      are untouched. */
  lemma LogoutOthersLeavesCurrent(devices: seq<Device>, caller: UserId, current: Option<nat>)
    ensures var r := LogoutOthers(devices, caller, current);
      && (forall d :: d in ActiveDevices(r, caller) ==> current == Some(d.sessionToken))
      && (forall i :: (0 <= i < |devices| && devices[i].owner == caller && devices[i].isActive
                      && current == Some(devices[i].sessionToken)) ==> devices[i] in ActiveDevices(r, caller))
      && (forall i :: 0 <= i < |devices| && devices[i].owner != caller ==> r[i] == devices[i])
    ensures current.None? ==> ActiveDevices(LogoutOthers(devices, caller, current), caller) == []
  {
    var r := LogoutOthers(devices, caller, current);
    forall i | 0 <= i < |devices| && devices[i].owner == caller && devices[i].isActive
               && current == Some(devices[i].sessionToken)
      ensures devices[i] in ActiveDevices(r, caller)
    {
      assert r[i] == devices[i];
    }
    if current.None? {
      NoActiveNoList(r, caller);
    }
  }

  /** Logging out keeps the table's keys and tokens, so it keeps them
      unique. */
  lemma LogoutKeepsUnique(devices: seq<Device>, caller: UserId, deviceId: DeviceId, current: Option<nat>)
    requires UniqueDevices(devices)
    ensures UniqueDevices(LogoutDevice(devices, caller, deviceId).0)
    ensures UniqueDevices(LogoutOthers(devices, caller, current))
  {
  }

  /** Logging out the devices with the given keys one after another. */
  function LogoutEach(devices: seq<Device>, caller: UserId, ids: seq<DeviceId>): (r: (seq<Device>, seq<LogoutReply>))
    ensures |r.0| == |devices| && |r.1| == |ids|
    ensures forall i :: 0 <= i < |devices| ==> r.0[i] == devices[i].(isActive := r.0[i].isActive)
    ensures forall i :: 0 <= i < |devices| && !devices[i].isActive ==> !r.0[i].isActive
    decreases |ids|
  {
    if |ids| == 0 then (devices, [])
    else
      var step := LogoutDevice(devices, caller, ids[0]);
      var rest := LogoutEach(step.0, caller, ids[1..]);
      (rest.0, [step.1] + rest.1)
  }

  /** Logging out one key leaves the caller's other active devices
      signed in. */
  lemma LogoutSparesOthers(devices: seq<Device>, caller: UserId, deviceId: DeviceId, other: DeviceId)
    requires other != deviceId
    requires HasSigned(devices, caller, other)
    ensures HasSigned(LogoutDevice(devices, caller, deviceId).0, caller, other)
  {
    var i :| 0 <= i < |devices| && Signed(devices[i], caller, other);
    assert Signed(LogoutDevice(devices, caller, deviceId).0[i], caller, other);
  }

  /** With unique keys, a successful logout leaves no active row with that
      key at all. */
  lemma LogoutClearsKey(devices: seq<Device>, caller: UserId, deviceId: DeviceId, i: nat)
    requires UniqueDevices(devices)
    requires HasSigned(devices, caller, deviceId)
    requires i < |devices| && devices[i].id == deviceId
    ensures !LogoutDevice(devices, caller, deviceId).0[i].isActive
  {
    var j :| 0 <= j < |devices| && Signed(devices[j], caller, deviceId);
    assert i == j;
  }

  /** Logging out several distinct active devices of the caller one after
      another succeeds every time and leaves each of them inactive. */
  lemma {:induction false} LogoutEachSucceeds(devices: seq<Device>, caller: UserId, ids: seq<DeviceId>)
    requires UniqueDevices(devices)
    requires forall a, b :: 0 <= a < b < |ids| ==> ids[a] != ids[b]
    requires forall k :: 0 <= k < |ids| ==> HasSigned(devices, caller, ids[k])
    ensures var r := LogoutEach(devices, caller, ids);
      && (forall k :: 0 <= k < |ids| ==> r.1[k] == LoggedOut)
      && (forall i :: 0 <= i < |devices| && devices[i].id in ids ==> !r.0[i].isActive)
    decreases |ids|
  {
    if |ids| > 0 {
      var next := LogoutDevice(devices, caller, ids[0]).0;
      LogoutKeepsUnique(devices, caller, ids[0], None);
      forall k | 0 <= k < |ids[1..]|
        ensures HasSigned(next, caller, ids[1..][k])
      {
        LogoutSparesOthers(devices, caller, ids[0], ids[k + 1]);
      }
      LogoutEachSucceeds(next, caller, ids[1..]);
      var r := LogoutEach(devices, caller, ids);
      forall i | 0 <= i < |devices| && devices[i].id in ids
        ensures !r.0[i].isActive
      {
        if devices[i].id == ids[0] {
          LogoutClearsKey(devices, caller, ids[0], i);
        } else {
          assert devices[i].id in ids[1..];
        }
      }
    }
  }
}

=== FILE: likes.dfy ===
/** Posts and likes: creating a post, liking and unliking it with the
    stored counter, the `is_liked` flag of the post serializer, and the
    owner-only delete. */
module Likes {
  import opened Models

  /** The post table keyed by primary key, and the like table, which is a
      set because it is unique on (user, post). */
  datatype Feed = Feed(posts: map<PostId, Post>, likes: set<Like>)

  datatype LikeReply =
    | PostNotFound              // 404 'Post not found'
    | Liked(likesCount: nat)    // 200 {'liked': True, 'likes_count': …}
    | AlreadyLiked              // 400 'Already liked'
    | Unliked(likesCount: nat)  // 200 {'liked': False, 'likes_count': …}
    | NotLiked                  // 400 'Not liked'

  datatype Outcome = Outcome(feed: Feed, reply: LikeReply)

  /** The users who like post `p`, as rows of the like table. */
  function LikesOf(likes: set<Like>, p: PostId): set<Like> {
    set l | l in likes && l.post == p
  }

  /** The stored counter of every post equals the number of its likes,
      and every like is of a post that exists. */
  predicate CountsMatch(feed: Feed) {
    && (forall p :: p in feed.posts ==> feed.posts[p].likesCount == |LikesOf(feed.likes, p)|)
    && (forall l :: l in feed.likes ==> l.post in feed.posts)
  }

  /** `PostListCreateView.perform_create`: the post is saved for the
      requesting user with the counter at its default of zero. The
      database picks the key; here the caller passes an unused one. */
  function CreatePost(feed: Feed, owner: UserId, caption: string, id: PostId): (f: Feed)
    requires id !in feed.posts
    ensures f.posts.Keys == feed.posts.Keys + {id}
    ensures f.posts[id].owner == owner && f.posts[id].likesCount == 0
    ensures forall p :: p in feed.posts ==> f.posts[p] == feed.posts[p]
    ensures f.likes == feed.likes
  {
    Feed(feed.posts[id := Post(owner, caption, 0)], feed.likes)
  }

  /** `LikePostView.post`: an unknown post is a 404; a first like stores
      the pair and raises the counter by one; a repeated like is refused
      and changes nothing. */
  function LikePost(feed: Feed, user: UserId, postId: PostId): (o: Outcome)
    ensures postId !in feed.posts ==> o == Outcome(feed, PostNotFound)
    ensures postId in feed.posts && Like(user, postId) in feed.likes ==> o == Outcome(feed, AlreadyLiked)
    ensures postId in feed.posts && Like(user, postId) !in feed.likes ==>
      && o.feed.likes == feed.likes + {Like(user, postId)}
      && o.feed.posts.Keys == feed.posts.Keys
      && o.feed.posts[postId].likesCount == feed.posts[postId].likesCount + 1
      && o.feed.posts[postId] == feed.posts[postId].(likesCount := o.feed.posts[postId].likesCount)
      && (forall p :: p in feed.posts && p != postId ==> o.feed.posts[p] == feed.posts[p])
      && o.reply == Liked(o.feed.posts[postId].likesCount)
  {
    if postId !in feed.posts then Outcome(feed, PostNotFound)
    else if Like(user, postId) in feed.likes then Outcome(feed, AlreadyLiked)
    else
      var post := feed.posts[postId];
      var post' := post.(likesCount := post.likesCount + 1);
      Outcome(Feed(feed.posts[postId := post'], feed.likes + {Like(user, postId)}), Liked(post'.likesCount))
  }

  /** `LikePostView.delete`: an unknown post is a 404; an existing like is
      removed and the counter lowered by one, but never below zero; without
      a like the answer is 'Not liked' and nothing changes. */
  function UnlikePost(feed: Feed, user: UserId, postId: PostId): (o: Outcome)
    ensures postId !in feed.posts ==> o == Outcome(feed, PostNotFound)
    ensures postId in feed.posts && Like(user, postId) !in feed.likes ==> o == Outcome(feed, NotLiked)
    ensures postId in feed.posts && Like(user, postId) in feed.likes ==>
      && o.feed.likes == feed.likes - {Like(user, postId)}
      && o.feed.posts.Keys == feed.posts.Keys
      && (feed.posts[postId].likesCount > 0 ==>
            o.feed.posts[postId].likesCount == feed.posts[postId].likesCount - 1)
      && (feed.posts[postId].likesCount == 0 ==> o.feed.posts[postId].likesCount == 0)
      && o.feed.posts[postId] == feed.posts[postId].(likesCount := o.feed.posts[postId].likesCount)
      && (forall p :: p in feed.posts && p != postId ==> o.feed.posts[p] == feed.posts[p])
      && o.reply == Unliked(o.feed.posts[postId].likesCount)
  {
    if postId !in feed.posts then Outcome(feed, PostNotFound)
    else if Like(user, postId) !in feed.likes then Outcome(feed, NotLiked)
    else
      var post := feed.posts[postId];
      var count := if post.likesCount - 1 < 0 then 0 else post.likesCount - 1;
      var post' := post.(likesCount := count);
      Outcome(Feed(feed.posts[postId := post'], feed.likes - {Like(user, postId)}), Unliked(count))
  }

  /** `PostSerializer.get_is_liked`: false for an anonymous viewer,
      otherwise whether that viewer's like of the post is stored. */
  predicate IsLiked(feed: Feed, viewer: Option<UserId>, postId: PostId) {
    viewer.Some? && Like(viewer.value, postId) in feed.likes
  }

  datatype DeleteReply =
    | Deleted          // 204
    | NotAllowed       // 403 'Not allowed to delete this post.'
    | DeleteNotFound   // 404

  datatype DeleteOutcome = DeleteOutcome(feed: Feed, reply: DeleteReply)

  /** `PostDeleteView`: the post is looked up first (404), then
      `perform_destroy` refuses anyone but its owner; the owner's delete
      removes the post and, by the cascade, its likes. */
  function DeletePost(feed: Feed, requester: UserId, postId: PostId): (o: DeleteOutcome)
    ensures postId !in feed.posts ==> o == DeleteOutcome(feed, DeleteNotFound)
    ensures postId in feed.posts && feed.posts[postId].owner != requester ==>
      o == DeleteOutcome(feed, NotAllowed)
    ensures postId in feed.posts && feed.posts[postId].owner == requester ==>
      && o.reply == Deleted
      && o.feed.posts.Keys == feed.posts.Keys - {postId}
      && (forall p :: p in o.feed.posts ==> o.feed.posts[p] == feed.posts[p])
      && o.feed.likes == feed.likes - LikesOf(feed.likes, postId)
  {
    if postId !in feed.posts then DeleteOutcome(feed, DeleteNotFound)
    else if feed.posts[postId].owner != requester then DeleteOutcome(feed, NotAllowed)
    else DeleteOutcome(Feed(feed.posts - {postId}, feed.likes - LikesOf(feed.likes, postId)), Deleted)
  }

  /** Adding a like of post `p` adds it to the likes of `p` and of no other
      post. */
  lemma LikesOfInsert(likes: set<Like>, l: Like, p: PostId)
    ensures LikesOf(likes + {l}, p) == if l.post == p then LikesOf(likes, p) + {l} else LikesOf(likes, p)
  {
  }

  lemma LikesOfRemove(likes: set<Like>, l: Like, p: PostId)
    ensures LikesOf(likes - {l}, p) == if l.post == p then LikesOf(likes, p) - {l} else LikesOf(likes, p)
  {
  }

  /** A new post keeps the counters honest. */
  lemma CreatePostKeepsCounts(feed: Feed, owner: UserId, caption: string, id: PostId)
    requires id !in feed.posts
    requires CountsMatch(feed)
    ensures CountsMatch(CreatePost(feed, owner, caption, id))
  {
    var f := CreatePost(feed, owner, caption, id);
    assert LikesOf(f.likes, id) == {} by {
      forall l | l in f.likes ensures l.post != id {
      }
    }
  }

  /** Liking keeps every counter equal to the number of likes it counts. */
  lemma LikeKeepsCounts(feed: Feed, user: UserId, postId: PostId)
    requires CountsMatch(feed)
    ensures CountsMatch(LikePost(feed, user, postId).feed)
  {
    var o := LikePost(feed, user, postId);
    if o.reply.Liked? {
      var l := Like(user, postId);
      forall p | p in o.feed.posts
        ensures o.feed.posts[p].likesCount == |LikesOf(o.feed.likes, p)|
      {
        LikesOfInsert(feed.likes, l, p);
      }
    }
  }

  /** Unliking keeps the counters honest; in an honest feed the floor at
      zero never takes effect, so a successful unlike lowers the counter by
      exactly one. */
  lemma UnlikeKeepsCounts(feed: Feed, user: UserId, postId: PostId)
    requires CountsMatch(feed)
    ensures CountsMatch(UnlikePost(feed, user, postId).feed)
    ensures UnlikePost(feed, user, postId).reply.Unliked? ==>
      UnlikePost(feed, user, postId).feed.posts[postId].likesCount == feed.posts[postId].likesCount - 1
  {
    var o := UnlikePost(feed, user, postId);
    if o.reply.Unliked? {
      var l := Like(user, postId);
      assert l in LikesOf(feed.likes, postId);
      forall p | p in o.feed.posts
        ensures o.feed.posts[p].likesCount == |LikesOf(o.feed.likes, p)|
      {
        LikesOfRemove(feed.likes, l, p);
      }
    }
  }

  /** Deleting a post takes its likes along, so the rest stays honest. */
  lemma DeleteKeepsCounts(feed: Feed, requester: UserId, postId: PostId)
    requires CountsMatch(feed)
    ensures CountsMatch(DeletePost(feed, requester, postId).feed)
  {
    var o := DeletePost(feed, requester, postId);
    if o.reply == Deleted {
      forall p | p in o.feed.posts
        ensures LikesOf(o.feed.likes, p) == LikesOf(feed.likes, p)
      {
      }
    }
  }

  /** A like followed by an unlike by the same user leaves the feed,
      counter included, exactly as it was. */
  lemma LikeThenUnlike(feed: Feed, user: UserId, postId: PostId)
    requires LikePost(feed, user, postId).reply.Liked?
    ensures UnlikePost(LikePost(feed, user, postId).feed, user, postId) ==
      Outcome(feed, Unliked(feed.posts[postId].likesCount))
  {
    var f1 := LikePost(feed, user, postId).feed;
    var f2 := UnlikePost(f1, user, postId).feed;
    assert f2.likes == feed.likes;
    assert f2.posts == feed.posts;
  }

  /** Liking twice is liking once: the second attempt is refused and the
      feed is the one after the first. */
  lemma LikeTwice(feed: Feed, user: UserId, postId: PostId)
    requires postId in feed.posts
    ensures var f1 := LikePost(feed, user, postId).feed;
      LikePost(f1, user, postId) == Outcome(f1, AlreadyLiked)
  {
  }

  /** The viewer's flag follows their own likes and unlikes, and no one
      else's flag moves. */
  lemma IsLikedTracksLikes(feed: Feed, user: UserId, postId: PostId, viewer: Option<UserId>, q: PostId)
    requires postId in feed.posts
    ensures IsLiked(LikePost(feed, user, postId).feed, Some(user), postId)
    ensures !IsLiked(UnlikePost(feed, user, postId).feed, Some(user), postId)
    ensures viewer != Some(user) || q != postId ==>
      && (IsLiked(LikePost(feed, user, postId).feed, viewer, q) <==> IsLiked(feed, viewer, q))
      && (IsLiked(UnlikePost(feed, user, postId).feed, viewer, q) <==> IsLiked(feed, viewer, q))
    ensures !IsLiked(LikePost(feed, user, postId).feed, None, q)
  {
  }

  /** On a feed whose counters are honest, a post the viewer is shown as
      liking exists and shows at least one like; a post with no likes is
      shown as liked to nobody. */
  lemma LikedPostCounted(feed: Feed, viewer: Option<UserId>, postId: PostId)
    requires CountsMatch(feed)
    ensures IsLiked(feed, viewer, postId) ==> postId in feed.posts && feed.posts[postId].likesCount >= 1
    ensures postId in feed.posts && feed.posts[postId].likesCount == 0 ==> !IsLiked(feed, viewer, postId)
  {
    if IsLiked(feed, viewer, postId) {
      var l := Like(viewer.value, postId);
      assert l in LikesOf(feed.likes, postId);
    }
  }

  /** Someone else's delete leaves the post, and everything else, in place. */
  lemma NonOwnerCannotDelete(feed: Feed, requester: UserId, postId: PostId)
    requires postId in feed.posts && feed.posts[postId].owner != requester
    ensures DeletePost(feed, requester, postId).feed == feed
    ensures postId in DeletePost(feed, requester, postId).feed.posts
  {
  }
}

=== FILE: models.dfy ===
/** The records of the backend's data model, one datatype per table, with
    the defaults the tables give to new rows. Row identity that the
    database assigns (auto-increment keys, UUID session tokens) is a plain
    number here. */
module Models {

  datatype Option<+T> = None | Some(value: T)

  type UserId = nat
  type PostId = nat
  type DeviceId = nat

  /** An account. `password` stands for the stored credential that
      `set_password` writes; how it is hashed is not modelled. */
  datatype User = User(
    id: UserId,
    username: string,
    email: string,
    password: string,
    isActive: bool,
    isVerified: bool,
    twoFactorEnabled: bool,
    biometricEnabled: bool,
    bio: Option<string>,
    isPrivate: bool)

  /** A freshly saved account: the field defaults of the user table
      (unverified, no second factor, no biometrics, no bio, private) and
      the active flag the registration serializer sets explicitly. */
  function NewUser(id: UserId, username: string, email: string, password: string): User {
    User(id, username, email, password,
         isActive := true, isVerified := false, twoFactorEnabled := false,
         biometricEnabled := false, bio := None, isPrivate := true)
  }

  /** Users are found by primary key, by exact username or by exact email. */
  datatype UserKey = ById(id: UserId) | ByUsername(username: string) | ByEmail(email: string)

  predicate Matches(u: User, key: UserKey) {
    match key
    case ById(id) => u.id == id
    case ByUsername(name) => u.username == name
    case ByEmail(email) => u.email == email
  }

  /** The primary key and the two unique columns of the user table. */
  predicate UniqueUsers(users: seq<User>) {
    forall i, j :: 0 <= i < j < |users| ==>
      users[i].id != users[j].id
      && users[i].username != users[j].username
      && users[i].email != users[j].email
  }

  /** `User.objects.get(...)` on a table that keeps its unique columns
      (`UniqueUsers`): the position of the matching row, or None when no
      row matches (`DoesNotExist`). `get` raises when several rows match;
      the two agree only because, under `UniqueUsers`, at most one does
      (`FindUserUnique`). */
  function FindUser(users: seq<User>, key: UserKey): (r: Option<nat>)
    ensures r.Some? ==> r.value < |users| && Matches(users[r.value], key)
    ensures r.Some? ==> forall j :: 0 <= j < r.value ==> !Matches(users[j], key)
    ensures r.None? <==> forall j :: 0 <= j < |users| ==> !Matches(users[j], key)
  {
    if |users| == 0 then None
    else if Matches(users[0], key) then Some(0)
    else match FindUser(users[1..], key)
      case None => None
      case Some(k) => Some(k + 1)
  }

  /** The first matching row is the one found. */
  lemma FindUserFirst(users: seq<User>, key: UserKey, i: nat)
    requires i < |users| && Matches(users[i], key)
    requires forall j :: 0 <= j < i ==> !Matches(users[j], key)
    ensures FindUser(users, key) == Some(i)
  {
    var r := FindUser(users, key);
    assert r.Some?;
    assert !(r.value > i);
  }

  /** Under the uniqueness constraints a match is the only match, so the
      row found is the row with that key wherever it sits. */
  lemma FindUserUnique(users: seq<User>, key: UserKey, i: nat)
    requires UniqueUsers(users)
    requires i < |users| && Matches(users[i], key)
    ensures FindUser(users, key) == Some(i)
  {
    FindUserFirst(users, key, i);
  }

  /** Rows keep being found when the table grows or when a row changes
      in columns the key does not look at. */
  lemma FindUserStable(users: seq<User>, users': seq<User>, key: UserKey)
    requires |users| <= |users'|
    requires forall j :: 0 <= j < |users| ==> (Matches(users'[j], key) <==> Matches(users[j], key))
    requires FindUser(users, key).Some?
    ensures FindUser(users', key) == FindUser(users, key)
  {
    FindUserFirst(users', key, FindUser(users, key).value);
  }

  /** A primary key larger than every key in use, as an auto-increment
      column hands out. */
  function FreshUserId(users: seq<User>): (id: UserId)
    ensures forall i :: 0 <= i < |users| ==> users[i].id < id
  {
    if |users| == 0 then 1
    else
      var rest := FreshUserId(users[1..]);
      if users[0].id < rest then rest else users[0].id + 1
  }

  /** What a one-time code is for. */
  datatype Purpose = ForRegister | ForReset | ForLogin

  /** The width of the code column. */
  const CodeMaxLength: nat := 6

  /** A one-time code row. Times are seconds on the clock the caller
      passes in. */
  datatype Otp = Otp(
    user: UserId,
    code: string,
    purpose: Purpose,
    createdAt: int,
    expiresAt: int,
    isUsed: bool)

  /** A post row; the post's own key is the key of the map it sits in. */
  datatype Post = Post(owner: UserId, caption: string, likesCount: nat)

  /** One like; the like table is unique on (user, post). */
  datatype Like = Like(user: UserId, post: PostId)

  /** One follow edge; unique on (follower, followed). */
  datatype Follow = Follow(follower: UserId, followed: UserId)

  /** One pending follow request; unique on (requester, recipient). */
  datatype FollowRequest = FollowRequest(requester: UserId, recipient: UserId)

  /** One device session. `sessionToken` stands for the UUID column. */
  datatype Device = Device(
    id: DeviceId,
    owner: UserId,
    sessionToken: nat,
    name: string,
    isActive: bool)

  /** The five notification kinds the notification table admits. */
  datatype NotificationKind =
    | FollowRequested
    | FollowAccepted
    | PostLiked
    | PostCommented
    | Mentioned

  datatype Notification = Notification(
    recipient: UserId,
    actor: UserId,
    kind: NotificationKind,
    post: Option<PostId>,
    message: string,
    isRead: bool)

  /** A subset is no larger than the set that holds it. */
  lemma SubsetCard<T>(a: set<T>, b: set<T>)
    requires a <= b
    ensures |a| <= |b|
  {
    assert b == a + (b - a);
  }
}

=== FILE: profile.dfy ===
/** The profile update (`ProfileView.patch`): the request body is cut down
    to a whitelist of keys and the rest goes through the user serializer as
    a partial update. Of the whitelisted keys only `bio` and
    `two_factor_enabled` are serializer fields; `biometric_enabled` passes
    the whitelist but is never written. */
module Profile {
  import opened Text
  import opened Models

  /** A value of the request body, as far as the two fields care:
      JSON strings, booleans, integers, null, and everything else
      (floats, lists, objects). */
  datatype PatchValue = Str(s: string) | Bool(b: bool) | Int(n: int) | Null | Other

  type Patch = map<string, PatchValue>

  const AllowedKeys: set<string> := {"bio", "two_factor_enabled", "biometric_enabled"}

  /** The whitelist: keys outside it are dropped, the rest kept as sent. */
  function FilterPatch(data: Patch): (r: Patch)
    ensures r.Keys == data.Keys * AllowedKeys
    ensures forall k :: k in r ==> r[k] == data[k]
  {
    map k | k in data && k in AllowedKeys :: data[k]
  }

  /** A field's decoded value, or its refusal. */
  datatype Parsed<T> = Valid(value: T) | Rejected

  /** Python's `str(n)` for any integer. */
  function IntString(n: int): (s: string)
    ensures |s| >= 1
  {
    if n < 0 then "-" + DecimalString(-n) else DecimalString(n)
  }

  /** The `bio` field, a nullable text column that may be blank: null is
      stored as null, a string is stored with surrounding whitespace
      removed unless it holds a null character, an integer is stored as
      its decimal text, and booleans and anything else are refused. */
  function ParseBio(v: PatchValue): (r: Parsed<Option<string>>)
    ensures r.Rejected? <==> v.Bool? || v.Other? || (v.Str? && '\0' in Strip(v.s))
    ensures v.Null? ==> r == Valid(None)
    ensures v.Str? && '\0' !in Strip(v.s) ==> r == Valid(Some(Strip(v.s)))
    ensures v.Int? ==> r == Valid(Some(IntString(v.n)))
  {
    match v
    case Null => Valid(None)
    case Str(s) => if '\0' in Strip(s) then Rejected else Valid(Some(Strip(s)))
    case Int(n) => Valid(Some(IntString(n)))
    case _ => Rejected
  }

  /** Whatever the field accepts is a clean bio. */
  lemma ParsedBioClean(v: PatchValue)
    requires ParseBio(v).Valid?
    ensures CleanBio(ParseBio(v).value)
  {
    match v {
      case Str(s) => StripIdempotent(s);
      case Int(n) => IntStringStripped(n);
      case _ =>
    }
  }

  /** A bio as the field leaves it: no surrounding whitespace and no null
      character. */
  predicate CleanBio(b: Option<string>) {
    b.Some? ==> Strip(b.value) == b.value && '\0' !in b.value
  }

  /** The spellings a boolean field reads as true or as false. */
  const TrueStrings: set<string> :=
    {"t", "T", "y", "Y", "yes", "Yes", "YES", "true", "True", "TRUE", "on", "On", "ON", "1"}
  const FalseStrings: set<string> :=
    {"f", "F", "n", "N", "no", "No", "NO", "false", "False", "FALSE", "off", "Off", "OFF", "0"}

  /** The `two_factor_enabled` field, a boolean column that is not
      nullable: booleans, the integers 1 and 0 and the listed spellings
      are accepted; null and everything else are refused. */
  function ParseFlag(v: PatchValue): (r: Parsed<bool>)
    ensures v.Bool? ==> r == Valid(v.b)
    ensures v.Null? || v.Other? ==> r.Rejected?
    ensures v.Str? ==> (r == Valid(true) <==> v.s in TrueStrings) && (r == Valid(false) <==> v.s in FalseStrings)
    ensures v.Int? ==> (r.Valid? <==> v.n == 0 || v.n == 1) && (r.Valid? ==> r.value == (v.n == 1))
  {
    match v
    case Bool(b) => Valid(b)
    case Int(n) => if n == 1 then Valid(true) else if n == 0 then Valid(false) else Rejected
    case Str(s) =>
      assert TrueStrings !! FalseStrings;
      if s in TrueStrings then Valid(true) else if s in FalseStrings then Valid(false) else Rejected
    case _ => Rejected
  }

  datatype PatchReply =
    | Updated(user: User)             // 200 with the serialized user
    | PatchInvalid(fields: set<string>) // 400 with the field errors

  /** Whether the key is present in the body and its value refused. */
  predicate RefusedBio(data: Patch) {
    "bio" in data && ParseBio(data["bio"]).Rejected?
  }

  predicate RefusedFlag(data: Patch) {
    "two_factor_enabled" in data && ParseFlag(data["two_factor_enabled"]).Rejected?
  }

  /** `ProfileView.patch`. Every refused field is reported and nothing is
      saved; otherwise the fields present are written and every other
      column, `biometric_enabled` included, keeps its value. */
  function ApplyProfilePatch(user: User, data: Patch): (r: PatchReply)
    ensures r.PatchInvalid? <==> RefusedBio(data) || RefusedFlag(data)
    ensures r.PatchInvalid? ==>
      && ("bio" in r.fields <==> RefusedBio(data))
      && ("two_factor_enabled" in r.fields <==> RefusedFlag(data))
      && r.fields <= {"bio", "two_factor_enabled"}
    ensures r.Updated? ==> r.user == user.(bio := r.user.bio, twoFactorEnabled := r.user.twoFactorEnabled)
    ensures r.Updated? && "bio" !in data ==> r.user.bio == user.bio
    ensures r.Updated? && "bio" in data ==> r.user.bio == ParseBio(data["bio"]).value
    ensures r.Updated? && "two_factor_enabled" !in data ==> r.user.twoFactorEnabled == user.twoFactorEnabled
    ensures r.Updated? && "two_factor_enabled" in data ==>
      r.user.twoFactorEnabled == ParseFlag(data["two_factor_enabled"]).value
  {
    var patch := FilterPatch(data);
    var bio := if "bio" in patch then ParseBio(patch["bio"]) else Valid(user.bio);
    var flag := if "two_factor_enabled" in patch then ParseFlag(patch["two_factor_enabled"]) else Valid(user.twoFactorEnabled);
    var errors := (if bio.Rejected? then {"bio"} else {}) + (if flag.Rejected? then {"two_factor_enabled"} else {});
    if errors != {} then PatchInvalid(errors)
    else Updated(user.(bio := bio.value, twoFactorEnabled := flag.value))
  }

  /** Keys outside the whitelist, `profile_pic` and the read-only columns
      among them, make no difference to the outcome. */
  lemma OnlyAllowedKeysMatter(user: User, data: Patch, data': Patch)
    requires FilterPatch(data) == FilterPatch(data')
    ensures ApplyProfilePatch(user, data) == ApplyProfilePatch(user, data')
  {
    assert forall k :: k in AllowedKeys ==> (k in data <==> k in FilterPatch(data));
    assert forall k :: k in AllowedKeys && k in data ==> data[k] == FilterPatch(data)[k];
  }

  /** The whitelist is all the view looks at: the outcome for a body is
      the outcome for its whitelisted part, and adding a key outside the
      whitelist, whatever its value, changes nothing. */
  lemma WhitelistOnly(user: User, data: Patch, k: string, v: PatchValue)
    requires k !in AllowedKeys
    ensures ApplyProfilePatch(user, data) == ApplyProfilePatch(user, FilterPatch(data))
    ensures ApplyProfilePatch(user, data[k := v]) == ApplyProfilePatch(user, data)
  {
    assert FilterPatch(FilterPatch(data)) == FilterPatch(data);
    OnlyAllowedKeysMatter(user, data, FilterPatch(data));
    assert FilterPatch(data[k := v]) == FilterPatch(data);
    OnlyAllowedKeysMatter(user, data[k := v], data);
  }

  /** Sending the same accepted patch again changes nothing more. */
  lemma PatchIdempotent(user: User, data: Patch)
    requires ApplyProfilePatch(user, data).Updated?
    ensures ApplyProfilePatch(ApplyProfilePatch(user, data).user, data) == ApplyProfilePatch(user, data)
  {
  }

  /** A bio with surrounding whitespace is stored as its stripped text, so
      sending the stripped text instead gives the same result; a string bio
      is accepted exactly when it holds no null character. */
  lemma BioStoredStripped(user: User, s: string)
    ensures ApplyProfilePatch(user, map["bio" := Str(s)]) == ApplyProfilePatch(user, map["bio" := Str(Strip(s))])
    ensures ApplyProfilePatch(user, map["bio" := Str(s)]).Updated? <==> '\0' !in Strip(s)
  {
    var t := Strip(s);
    StripIdempotent(s);
    assert Strip(t) == t;
    BioOnlyPatch(user, s);
    BioOnlyPatch(user, t);
    if '\0' in t {
      assert ApplyProfilePatch(user, map["bio" := Str(s)]) == PatchInvalid({"bio"});
      assert ApplyProfilePatch(user, map["bio" := Str(t)]) == PatchInvalid({"bio"});
    } else {
      assert ApplyProfilePatch(user, map["bio" := Str(s)]) == Updated(user.(bio := Some(t)));
      assert ApplyProfilePatch(user, map["bio" := Str(t)]) == Updated(user.(bio := Some(t)));
    }
  }

  /** A body holding only a string bio writes the stripped text, and
      nothing else, or is refused on the bio alone when the text holds a
      null character. */
  lemma BioOnlyPatch(user: User, s: string)
    ensures '\0' !in Strip(s) ==> ApplyProfilePatch(user, map["bio" := Str(s)]) == Updated(user.(bio := Some(Strip(s))))
    ensures '\0' in Strip(s) ==> ApplyProfilePatch(user, map["bio" := Str(s)]) == PatchInvalid({"bio"})
  {
    KeysDistinct();
    var a := map["bio" := Str(s)];
    assert "bio" in a && a["bio"] == Str(s);
    assert "two_factor_enabled" !in a;
    assert !RefusedFlag(a);
    var r := ApplyProfilePatch(user, a);
    if '\0' !in Strip(s) {
      assert !RefusedBio(a);
      assert r.user.bio == Some(Strip(s));
      assert r.user.twoFactorEnabled == user.twoFactorEnabled;
    } else {
      assert RefusedBio(a);
      assert r.fields == {"bio"};
    }
  }

  /** The two serializer keys are different strings. */
  lemma KeysDistinct()
    ensures "bio" != "two_factor_enabled"
  {
    assert |"bio"| != |"two_factor_enabled"|;
  }

  /** The profile as the user serializer shows it: the editable fields. */
  datatype ProfileFields = ProfileFields(bio: Option<string>, twoFactorEnabled: bool)

  function ShownFields(user: User): ProfileFields {
    ProfileFields(user.bio, user.twoFactorEnabled)
  }

  /** The body that writes the shown profile back. */
  function EchoPatch(p: ProfileFields): Patch {
    map["bio" := if p.bio.Some? then Str(p.bio.value) else Null,
        "two_factor_enabled" := Bool(p.twoFactorEnabled)]
  }

  /** Writing back what the profile shows, after any accepted patch, is
      accepted and changes nothing: a stored bio is already stripped. */
  lemma EchoAfterPatchIsNoop(user: User, data: Patch)
    requires ApplyProfilePatch(user, data).Updated?
    requires CleanBio(user.bio)
    ensures var u := ApplyProfilePatch(user, data).user;
      ApplyProfilePatch(u, EchoPatch(ShownFields(u))) == Updated(u)
  {
    var u := ApplyProfilePatch(user, data).user;
    PatchKeepsBioStripped(user, data);
    EchoIsNoop(u);
  }

  /** An accepted patch stores a clean bio, or keeps the one there was. */
  lemma PatchKeepsBioStripped(user: User, data: Patch)
    requires ApplyProfilePatch(user, data).Updated?
    requires CleanBio(user.bio)
    ensures CleanBio(ApplyProfilePatch(user, data).user.bio)
  {
    if "bio" in data {
      assert ApplyProfilePatch(user, data).user.bio == ParseBio(data["bio"]).value;
      ParsedBioClean(data["bio"]);
    }
  }

  /** Writing back what the profile shows is accepted and changes nothing
      when the stored bio is clean. */
  lemma EchoIsNoop(u: User)
    requires CleanBio(u.bio)
    ensures ApplyProfilePatch(u, EchoPatch(ShownFields(u))) == Updated(u)
  {
    KeysDistinct();
    var e := EchoPatch(ShownFields(u));
    assert "bio" in e && "two_factor_enabled" in e;
    assert e["two_factor_enabled"] == Bool(u.twoFactorEnabled);
    assert ParseBio(e["bio"]) == Valid(u.bio);
    assert ParseFlag(e["two_factor_enabled"]) == Valid(u.twoFactorEnabled);
  }

  /** The decimal text of an integer has no whitespace and no null
      character. */
  lemma IntStringStripped(n: int)
    ensures Strip(IntString(n)) == IntString(n)
    ensures '\0' !in IntString(n)
  {
    var s := IntString(n);
    forall i | 0 <= i < |s| ensures !IsSpace(s[i]) && s[i] != '\0' {
      if n < 0 && i > 0 {
        assert s[i] == DecimalString(-n)[i - 1];
      }
    }
    StripNoSpace(s);
  }
}

=== FILE: social.dfy ===
/** Follow edges, follow requests and private accounts.

    The follow, accept and profile-read handlers are not defined in
    backend/api/views.py. What is stated here is what the `Follow` and
    `FollowRequest` tables (each unique on its ordered pair), the follower
    counts of the user table, and the assertions of
    backend/api/tests/test_logout.py pin down: a follow of a private
    account leaves a pending request, accepting the request creates the
    edge, and only then may the follower read the profile and see the
    posts. A public account is followed at once; following oneself, or
    following or asking twice, is refused and changes nothing. */
module Social {
  import opened Models
  import Likes

  /** The follow table and the follow-request table; both are sets because
      both are unique on their ordered pair. */
  datatype Ledger = Ledger(follows: set<Follow>, requests: set<FollowRequest>)

  /** `user.followers`: the edges pointing at `u`. */
  function Followers(follows: set<Follow>, u: UserId): set<Follow> {
    set f | f in follows && f.followed == u
  }

  /** `user.following`: the edges leaving `u`. */
  function Following(follows: set<Follow>, u: UserId): set<Follow> {
    set f | f in follows && f.follower == u
  }

  /** `followers_count`: never more than the edges there are, and zero
      exactly when no edge points at `u`. */
  function FollowersCount(ledger: Ledger, u: UserId): (c: nat)
    ensures c <= |ledger.follows|
    ensures c == 0 <==> forall f :: f in ledger.follows ==> f.followed != u
  {
    var s := Followers(ledger.follows, u);
    SubsetCard(s, ledger.follows);
    FollowersEmpty(ledger.follows, u);
    |s|
  }

  /** `following_count`: never more than the edges there are, and zero
      exactly when no edge leaves `u`. */
  function FollowingCount(ledger: Ledger, u: UserId): (c: nat)
    ensures c <= |ledger.follows|
    ensures c == 0 <==> forall f :: f in ledger.follows ==> f.follower != u
  {
    var s := Following(ledger.follows, u);
    SubsetCard(s, ledger.follows);
    FollowingEmpty(ledger.follows, u);
    |s|
  }

  lemma FollowersEmpty(follows: set<Follow>, u: UserId)
    ensures Followers(follows, u) == {} <==> forall f :: f in follows ==> f.followed != u
  {
    if Followers(follows, u) == {} {
      forall f | f in follows ensures f.followed != u {
        assert f !in Followers(follows, u);
      }
    } else {
      var f :| f in Followers(follows, u);
      assert f in follows && f.followed == u;
    }
  }

  lemma FollowingEmpty(follows: set<Follow>, u: UserId)
    ensures Following(follows, u) == {} <==> forall f :: f in follows ==> f.follower != u
  {
    if Following(follows, u) == {} {
      forall f | f in follows ensures f.follower != u {
        assert f !in Following(follows, u);
      }
    } else {
      var f :| f in Following(follows, u);
      assert f in follows && f.follower == u;
    }
  }

  /** Nobody follows or asks to follow themselves, and a pair is never
      followed and requested at once. */
  predicate Consistent(ledger: Ledger) {
    && (forall f :: f in ledger.follows ==> f.follower != f.followed)
    && (forall r :: r in ledger.requests ==> r.requester != r.recipient)
    && (forall r :: r in ledger.requests ==> Follow(r.requester, r.recipient) !in ledger.follows)
  }

  /** Who may read an account: its owner, anyone when it is public, and
      otherwise only a signed-in follower. */
  predicate CanView(viewer: Option<UserId>, target: User, ledger: Ledger) {
    || viewer == Some(target.id)
    || !target.isPrivate
    || (viewer.Some? && Follow(viewer.value, target.id) in ledger.follows)
  }

  /** The visibility rule case by case: the owner and, for a public
      account, everyone may read it; an anonymous viewer reads only public
      accounts; another signed-in user reads a private account exactly
      when following it. Pending requests play no part. */
  lemma ViewRule(viewer: Option<UserId>, target: User, ledger: Ledger, requests: set<FollowRequest>)
    ensures viewer == Some(target.id) ==> CanView(viewer, target, ledger)
    ensures !target.isPrivate ==> CanView(viewer, target, ledger)
    ensures viewer.None? ==> (CanView(viewer, target, ledger) <==> !target.isPrivate)
    ensures viewer.Some? && viewer.value != target.id && target.isPrivate ==>
      (CanView(viewer, target, ledger) <==> Follow(viewer.value, target.id) in ledger.follows)
    ensures CanView(viewer, target, ledger.(requests := requests)) == CanView(viewer, target, ledger)
  {
  }

  datatype ProfileReply =
    | Profile(user: User)  // 200 profile payload
    | PrivateAccount       // 403 'This account is private'
    | ProfileNotFound      // 404

  /** Reading a profile: a blocked read fails loudly with 403. */
  function ReadProfile(users: seq<User>, ledger: Ledger, viewer: Option<UserId>, targetId: UserId): (r: ProfileReply)
    ensures r == ProfileNotFound <==> FindUser(users, ById(targetId)).None?
    ensures r.Profile? <==>
      && FindUser(users, ById(targetId)).Some?
      && CanView(viewer, users[FindUser(users, ById(targetId)).value], ledger)
    ensures r.Profile? ==> r.user.id == targetId && r.user == users[FindUser(users, ById(targetId)).value]
  {
    match FindUser(users, ById(targetId))
    case None => ProfileNotFound
    case Some(i) => if CanView(viewer, users[i], ledger) then Profile(users[i]) else PrivateAccount
  }

  /** A post is listed for a viewer when its author's account is readable
      to that viewer. */
  predicate PostVisible(users: seq<User>, ledger: Ledger, viewer: Option<UserId>, post: Post) {
    var i := FindUser(users, ById(post.owner));
    i.Some? && CanView(viewer, users[i.value], ledger)
  }

  /** The post listing a viewer gets: a post is listed exactly when
      reading its author's profile would succeed; where that read answers
      403 the posts are left out silently rather than refused. */
  function VisiblePosts(users: seq<User>, ledger: Ledger, feed: Likes.Feed, viewer: Option<UserId>): (ps: set<PostId>)
    ensures ps <= feed.posts.Keys
    ensures forall p :: p in feed.posts ==>
      (p in ps <==> ReadProfile(users, ledger, viewer, feed.posts[p].owner).Profile?)
  {
    set p | p in feed.posts && PostVisible(users, ledger, viewer, feed.posts[p])
  }

  /** The listing rule per author: a public author's posts are listed to
      everyone, a private author's only to the author and to followers,
      and an author missing from the user table is never listed. */
  lemma ListingRule(users: seq<User>, ledger: Ledger, feed: Likes.Feed, viewer: Option<UserId>, p: PostId)
    requires p in feed.posts
    ensures FindUser(users, ById(feed.posts[p].owner)).None? ==> p !in VisiblePosts(users, ledger, feed, viewer)
    ensures var i := FindUser(users, ById(feed.posts[p].owner));
      i.Some? && !users[i.value].isPrivate ==> p in VisiblePosts(users, ledger, feed, viewer)
    ensures var i := FindUser(users, ById(feed.posts[p].owner));
      i.Some? && users[i.value].isPrivate ==>
        (p in VisiblePosts(users, ledger, feed, viewer) <==>
           viewer == Some(feed.posts[p].owner)
           || (viewer.Some? && Follow(viewer.value, feed.posts[p].owner) in ledger.follows))
  {
    var i := FindUser(users, ById(feed.posts[p].owner));
    if i.Some? {
      assert users[i.value].id == feed.posts[p].owner;
    }
  }

  datatype FollowReply =
    | RequestSent        // 200 'Follow request sent'
    | Followed           // 200, a public account is followed at once
    | TargetNotFound     // 404
    | CannotFollowSelf   // 400
    | AlreadyFollowing   // 400
    | AlreadyRequested   // 400

  datatype FollowOutcome = FollowOutcome(ledger: Ledger, reply: FollowReply)

  /** Following an account. A private account gets a pending request; a
      public one is followed directly. Self-follows and repeats are
      refused without change. No other pair is touched. */
  function RequestFollow(users: seq<User>, ledger: Ledger, actor: UserId, targetId: UserId): (o: FollowOutcome)
    ensures o.reply !in {RequestSent, Followed} ==> o.ledger == ledger
    ensures o.reply == TargetNotFound <==> FindUser(users, ById(targetId)).None?
    ensures o.reply == RequestSent <==>
      && FindUser(users, ById(targetId)).Some? && users[FindUser(users, ById(targetId)).value].isPrivate
      && actor != targetId
      && Follow(actor, targetId) !in ledger.follows
      && FollowRequest(actor, targetId) !in ledger.requests
    ensures o.reply == RequestSent ==>
      o.ledger == ledger.(requests := ledger.requests + {FollowRequest(actor, targetId)})
    ensures o.reply == Followed <==>
      && FindUser(users, ById(targetId)).Some? && !users[FindUser(users, ById(targetId)).value].isPrivate
      && actor != targetId
      && Follow(actor, targetId) !in ledger.follows
      && FollowRequest(actor, targetId) !in ledger.requests
    ensures o.reply == Followed ==>
      o.ledger == ledger.(follows := ledger.follows + {Follow(actor, targetId)})
    ensures actor == targetId ==> o.ledger == ledger
    ensures o.reply == CannotFollowSelf <==> FindUser(users, ById(targetId)).Some? && actor == targetId
    ensures o.reply == AlreadyFollowing <==>
      FindUser(users, ById(targetId)).Some? && actor != targetId && Follow(actor, targetId) in ledger.follows
    ensures o.reply == AlreadyRequested <==>
      && FindUser(users, ById(targetId)).Some? && actor != targetId
      && Follow(actor, targetId) !in ledger.follows
      && FollowRequest(actor, targetId) in ledger.requests
  {
    match FindUser(users, ById(targetId))
    case None => FollowOutcome(ledger, TargetNotFound)
    case Some(i) =>
      if actor == targetId then FollowOutcome(ledger, CannotFollowSelf)
      else if Follow(actor, targetId) in ledger.follows then FollowOutcome(ledger, AlreadyFollowing)
      else if FollowRequest(actor, targetId) in ledger.requests then FollowOutcome(ledger, AlreadyRequested)
      else if users[i].isPrivate then
        FollowOutcome(ledger.(requests := ledger.requests + {FollowRequest(actor, targetId)}), RequestSent)
      else
        FollowOutcome(ledger.(follows := ledger.follows + {Follow(actor, targetId)}), Followed)
  }

  datatype AcceptReply =
    | Accepted           // 200
    | RequesterNotFound  // 404
    | NoSuchRequest      // 404

  datatype AcceptOutcome = AcceptOutcome(ledger: Ledger, reply: AcceptReply)

  /** The recipient accepting a request: the request is consumed and the
      edge from requester to recipient created in one step. */
  function AcceptRequest(users: seq<User>, ledger: Ledger, recipient: UserId, requesterId: UserId): (o: AcceptOutcome)
    ensures o.reply != Accepted ==> o.ledger == ledger
    ensures o.reply == Accepted <==>
      FindUser(users, ById(requesterId)).Some? && FollowRequest(requesterId, recipient) in ledger.requests
    ensures o.reply == Accepted ==>
      && o.ledger.requests == ledger.requests - {FollowRequest(requesterId, recipient)}
      && o.ledger.follows == ledger.follows + {Follow(requesterId, recipient)}
    ensures o.reply == RequesterNotFound <==> FindUser(users, ById(requesterId)).None?
  {
    if FindUser(users, ById(requesterId)).None? then AcceptOutcome(ledger, RequesterNotFound)
    else if FollowRequest(requesterId, recipient) !in ledger.requests then AcceptOutcome(ledger, NoSuchRequest)
    else AcceptOutcome(Ledger(ledger.follows + {Follow(requesterId, recipient)},
                              ledger.requests - {FollowRequest(requesterId, recipient)}), Accepted)
  }

  lemma FollowersInsert(follows: set<Follow>, e: Follow, u: UserId)
    ensures Followers(follows + {e}, u) == if e.followed == u then Followers(follows, u) + {e} else Followers(follows, u)
    ensures Following(follows + {e}, u) == if e.follower == u then Following(follows, u) + {e} else Following(follows, u)
  {
  }

  /** A new edge from a to b raises b's follower count and a's following
      count by one each, and no other count. */
  lemma NewEdgeCounts(ledger: Ledger, ledger': Ledger, a: UserId, b: UserId, u: UserId)
    requires Follow(a, b) !in ledger.follows
    requires ledger'.follows == ledger.follows + {Follow(a, b)}
    ensures FollowersCount(ledger', u) == FollowersCount(ledger, u) + (if u == b then 1 else 0)
    ensures FollowingCount(ledger', u) == FollowingCount(ledger, u) + (if u == a then 1 else 0)
  {
    FollowersInsert(ledger.follows, Follow(a, b), u);
    if u == b {
      assert Follow(a, b) !in Followers(ledger.follows, u);
    }
    if u == a {
      assert Follow(a, b) !in Following(ledger.follows, u);
    }
  }

  /** Accepting a request raises the recipient's follower count and the
      requester's following count by one; a request alone counts for
      nothing. */
  lemma AcceptCounts(users: seq<User>, ledger: Ledger, recipient: UserId, requesterId: UserId, u: UserId)
    requires Consistent(ledger)
    requires AcceptRequest(users, ledger, recipient, requesterId).reply == Accepted
    ensures var l' := AcceptRequest(users, ledger, recipient, requesterId).ledger;
      && FollowersCount(l', u) == FollowersCount(ledger, u) + (if u == recipient then 1 else 0)
      && FollowingCount(l', u) == FollowingCount(ledger, u) + (if u == requesterId then 1 else 0)
  {
    var l' := AcceptRequest(users, ledger, recipient, requesterId).ledger;
    NewEdgeCounts(ledger, l', requesterId, recipient, u);
  }

  lemma RequestCounts(users: seq<User>, ledger: Ledger, actor: UserId, targetId: UserId, u: UserId)
    ensures var o := RequestFollow(users, ledger, actor, targetId);
      && (o.reply != Followed ==> FollowersCount(o.ledger, u) == FollowersCount(ledger, u)
                                  && FollowingCount(o.ledger, u) == FollowingCount(ledger, u))
      && (o.reply == Followed ==>
            && FollowersCount(o.ledger, u) == FollowersCount(ledger, u) + (if u == targetId then 1 else 0)
            && FollowingCount(o.ledger, u) == FollowingCount(ledger, u) + (if u == actor then 1 else 0))
  {
    var o := RequestFollow(users, ledger, actor, targetId);
    if o.reply == Followed {
      NewEdgeCounts(ledger, o.ledger, actor, targetId, u);
    }
  }

  /** Both operations keep the ledger consistent. */
  lemma RequestFollowKeepsConsistent(users: seq<User>, ledger: Ledger, actor: UserId, targetId: UserId)
    requires Consistent(ledger)
    ensures Consistent(RequestFollow(users, ledger, actor, targetId).ledger)
  {
  }

  lemma AcceptKeepsConsistent(users: seq<User>, ledger: Ledger, recipient: UserId, requesterId: UserId)
    requires Consistent(ledger)
    ensures Consistent(AcceptRequest(users, ledger, recipient, requesterId).ledger)
  {
  }

  /** Asking twice leaves one request: the second ask is refused and the
      ledger is the one after the first. */
  lemma RequestTwice(users: seq<User>, ledger: Ledger, actor: UserId, targetId: UserId)
    requires RequestFollow(users, ledger, actor, targetId).reply == RequestSent
    ensures var l1 := RequestFollow(users, ledger, actor, targetId).ledger;
      RequestFollow(users, l1, actor, targetId) == FollowOutcome(l1, AlreadyRequested)
  {
  }

  /** A pending request grants nothing: a private account stays closed to
      the requester until the request is accepted. */
  lemma RequestGrantsNothing(users: seq<User>, ledger: Ledger, actor: UserId, targetId: UserId)
    requires RequestFollow(users, ledger, actor, targetId).reply == RequestSent
    ensures var l1 := RequestFollow(users, ledger, actor, targetId).ledger;
      ReadProfile(users, l1, Some(actor), targetId) == PrivateAccount
  {
  }

  /** Accepting opens the recipient's profile to the requester. */
  lemma AcceptOpensProfile(users: seq<User>, ledger: Ledger, recipient: UserId, requesterId: UserId)
    requires AcceptRequest(users, ledger, recipient, requesterId).reply == Accepted
    requires FindUser(users, ById(recipient)).Some?
    ensures var l1 := AcceptRequest(users, ledger, recipient, requesterId).ledger;
      ReadProfile(users, l1, Some(requesterId), recipient).Profile?
  {
  }

  /** Before acceptance a signed-in non-follower sees none of a private
      account's posts; after acceptance, all of them. */
  lemma AcceptOpensPosts(users: seq<User>, ledger: Ledger, feed: Likes.Feed, recipient: UserId, requesterId: UserId)
    requires UniqueUsers(users)
    requires requesterId != recipient
    requires Follow(requesterId, recipient) !in ledger.follows
    requires var i := FindUser(users, ById(recipient)); i.Some? && users[i.value].isPrivate
    requires AcceptRequest(users, ledger, recipient, requesterId).reply == Accepted
    ensures forall p :: p in feed.posts && feed.posts[p].owner == recipient ==>
      p !in VisiblePosts(users, ledger, feed, Some(requesterId))
    ensures var l1 := AcceptRequest(users, ledger, recipient, requesterId).ledger;
      forall p :: p in feed.posts && feed.posts[p].owner == recipient ==>
        p in VisiblePosts(users, l1, feed, Some(requesterId))
  {
    var i := FindUser(users, ById(recipient)).value;
    assert users[i].id == recipient;
  }
}

=== FILE: text.dfy ===
/** ASCII stand-ins for the Python `str` operations the views rely on:
    `strip()`, `lower()`, `split('@')[0]` and `str(n)`. `DecimalValue`
    reads digits back as a number only so that the rendering's round trip
    can be stated; no view parses a number. */
module Text {

  /** Python's `str.isspace` restricted to ASCII: tab through carriage
      return, the four information separators, and the blank. */
  predicate IsSpace(c: char) {
    c == ' ' || 9 <= c as int <= 13 || 28 <= c as int <= 31
  }

  predicate IsBlank(s: string) {
    forall i :: 0 <= i < |s| ==> IsSpace(s[i])
  }

  predicate IsUpper(c: char) {
    'A' <= c <= 'Z'
  }

  /** Python's `str.lower` on one ASCII character. */
  function LowerChar(c: char): (d: char)
    ensures !IsUpper(d)
    ensures IsUpper(c) ==> d != c && d as int - c as int == 'a' as int - 'A' as int
    ensures !IsUpper(c) ==> d == c
  {
    if IsUpper(c) then (c as int + ('a' as int - 'A' as int)) as char else c
  }

  /** `s.lower()`: same length, no upper-case letter left, each capital
      replaced by its own small letter, every other character kept. */
  function Lower(s: string): (r: string)
    ensures |r| == |s|
    ensures forall i :: 0 <= i < |r| ==> !IsUpper(r[i])
    ensures forall i :: 0 <= i < |s| && IsUpper(s[i]) ==> r[i] as int - s[i] as int == 'a' as int - 'A' as int
    ensures forall i :: 0 <= i < |s| && !IsUpper(s[i]) ==> r[i] == s[i]
  {
    seq(|s|, i requires 0 <= i < |s| => LowerChar(s[i]))
  }

  lemma LowerConcat(a: string, b: string)
    ensures Lower(a + b) == Lower(a) + Lower(b)
  {
  }

  /** Leading whitespace removed: the result is the suffix of `s` that
      starts at its first non-space character. */
  function TrimStart(s: string): (r: string)
    ensures |r| <= |s| && r == s[|s| - |r|..]
    ensures IsBlank(s[..|s| - |r|])
    ensures r == [] || !IsSpace(r[0])
  {
    if |s| > 0 && IsSpace(s[0]) then
      var r := TrimStart(s[1..]);
      assert s[..|s| - |r|] == [s[0]] + s[1..][..|s| - 1 - |r|];
      r
    else s
  }

  /** Trailing whitespace removed: the result is the prefix of `s` that
      ends at its last non-space character. */
  function TrimEnd(s: string): (r: string)
    ensures |r| <= |s| && r == s[..|r|]
    ensures IsBlank(s[|r|..])
    ensures r == [] || !IsSpace(r[|r| - 1])
  {
    if |s| > 0 && IsSpace(s[|s| - 1]) then
      var r := TrimEnd(s[..|s| - 1]);
      assert s[|r|..] == s[..|s| - 1][|r|..] + [s[|s| - 1]];
      r
    else s
  }

  /** `r` is `s` with a blank run cut from each end: `s` is `a + r + b`
      for blank `a` and `b`, and `a` is `i` characters long. */
  predicate CutFrom(s: string, r: string, i: nat) {
    i + |r| <= |s| && r == s[i..i + |r|] && IsBlank(s[..i]) && IsBlank(s[i + |r|..])
  }

  /** `r` is `s` with a blank run cut from each end, of some length. */
  predicate CutSomewhere(s: string, r: string) {
    exists i: nat | i <= |s| :: CutFrom(s, r, i)
  }

  /** `s.strip()`. The input with blank runs removed from both ends, and
      no more: empty exactly when `s` is blank, and otherwise beginning
      and ending with a non-space character. */
  function Strip(s: string): (r: string)
    ensures r == [] <==> IsBlank(s)
    ensures r != [] ==> !IsSpace(r[0]) && !IsSpace(r[|r| - 1])
    ensures CutSomewhere(s, r)
    ensures |r| <= |s|
  {
    var t := TrimStart(s);
    var r := TrimEnd(t);
    CutOfTrims(s, t, r);
    BlankOfTrims(s, t, r);
    r
  }

  /** A prefix of a suffix, each with the rest blank, is a cut. */
  lemma CutOfTrims(s: string, t: string, r: string)
    requires |t| <= |s| && t == s[|s| - |t|..] && IsBlank(s[..|s| - |t|])
    requires |r| <= |t| && r == t[..|r|] && IsBlank(t[|r|..])
    ensures CutFrom(s, r, |s| - |t|)
  {
    SliceOfSuffix(s, |s| - |t|, |r|);
  }

  /** Nothing is left after both trims exactly when all was blank. */
  lemma BlankOfTrims(s: string, t: string, r: string)
    requires |t| <= |s| && t == s[|s| - |t|..] && IsBlank(s[..|s| - |t|])
    requires |r| <= |t| && r == t[..|r|] && IsBlank(t[|r|..])
    requires t == [] || !IsSpace(t[0])
    ensures r == [] <==> IsBlank(s)
  {
    var i := |s| - |t|;
    if r == [] {
      assert t[|r|..] == t;
      BlankJoin(s[..i], t);
      assert s == s[..i] + t;
    } else {
      assert r[0] == t[0];
      assert s[i] == t[0];
    }
  }

  lemma SliceOfSuffix(s: string, i: nat, n: nat)
    requires i + n <= |s|
    ensures s[i..][..n] == s[i..i + n]
    ensures s[i..][n..] == s[i + n..]
  {
  }

  lemma BlankJoin(a: string, b: string)
    requires IsBlank(a) && IsBlank(b)
    ensures IsBlank(a + b)
  {
    forall k | 0 <= k < |a + b| ensures IsSpace((a + b)[k]) {
      if k >= |a| {
        assert (a + b)[k] == b[k - |a|];
      }
    }
  }

  /** A string without whitespace is its own strip. */
  lemma StripNoSpace(s: string)
    requires forall i :: 0 <= i < |s| ==> !IsSpace(s[i])
    ensures Strip(s) == s
  {
    assert TrimStart(s) == s;
    assert TrimEnd(s) == s;
  }

  /** Stripping twice is stripping once. */
  lemma StripIdempotent(s: string)
    ensures Strip(Strip(s)) == Strip(s)
  {
    var r := Strip(s);
    if r != [] {
      StripTrimmed(r);
    }
  }

  /** A string that starts and ends with non-space characters is its own
      strip. */
  lemma StripTrimmed(r: string)
    requires r != [] && !IsSpace(r[0]) && !IsSpace(r[|r| - 1])
    ensures Strip(r) == r
  {
    assert TrimStart(r) == r;
    assert TrimEnd(r) == r;
  }

  /** `s.split(sep)[0]`: the longest prefix of `s` free of `sep`, which
      stops right before the first occurrence of `sep`, if any. */
  function BeforeFirst(s: string, sep: char): (r: string)
    ensures |r| <= |s| && r == s[..|r|]
    ensures sep !in r
    ensures |r| < |s| ==> s[|r|] == sep
  {
    if |s| == 0 || s[0] == sep then [] else [s[0]] + BeforeFirst(s[1..], sep)
  }

  predicate IsDigit(c: char) {
    '0' <= c <= '9'
  }

  predicate AllDigits(s: string) {
    forall i :: 0 <= i < |s| ==> IsDigit(s[i])
  }

  function DigitChar(d: nat): (c: char)
    requires d < 10
    ensures IsDigit(c)
  {
    ('0' as int + d) as char
  }

  function DigitValue(c: char): (d: nat)
    requires IsDigit(c)
    ensures d < 10
  {
    c as int - '0' as int
  }

  function Pow10(k: nat): (p: nat)
    ensures p >= 1
  {
    if k == 0 then 1 else 10 * Pow10(k - 1)
  }

  /** Python's `str(n)` for a non-negative integer: decimal digits with
      no leading zero (except for zero itself). */
  function DecimalString(n: nat): (s: string)
    ensures |s| >= 1 && AllDigits(s)
    ensures s[0] == '0' ==> n == 0
    decreases n
  {
    if n < 10 then [DigitChar(n)] else DecimalString(n / 10) + [DigitChar(n % 10)]
  }

  /** Python's `int(s)` on a string of decimal digits. */
  function DecimalValue(s: string): nat
    requires AllDigits(s)
  {
    if |s| == 0 then 0 else 10 * DecimalValue(s[..|s| - 1]) + DigitValue(s[|s| - 1])
  }

  /** Reading back a decimal rendering gives the number rendered. */
  lemma {:induction false} DecimalRoundTrip(n: nat)
    ensures DecimalValue(DecimalString(n)) == n
    decreases n
  {
    var s := DecimalString(n);
    if n >= 10 {
      DecimalRoundTrip(n / 10);
      assert s[..|s| - 1] == DecimalString(n / 10);
    }
  }

  /** Distinct numbers render as distinct strings. */
  lemma DecimalStringInjective(a: nat, b: nat)
    requires DecimalString(a) == DecimalString(b)
    ensures a == b
  {
    DecimalRoundTrip(a);
    DecimalRoundTrip(b);
  }

  /** A number with k + 1 digits renders as exactly k + 1 characters. */
  lemma {:induction false} DecimalLength(n: nat, k: nat)
    requires Pow10(k) <= n < Pow10(k + 1)
    ensures |DecimalString(n)| == k + 1
    decreases k
  {
    if k > 0 {
      DecimalLength(n / 10, k - 1);
    }
  }
}

=== FILE: usernames.dfy ===
/** The username suggestion shown before registration
    (`UsernamePreviewView.post`). */
module Usernames {
  import opened Text
  import opened Models

  datatype Preview =
    | FirstNameRequired          // 400 'First name is required'
    | Suggested(username: string) // 200 {'username': …}

  /** The name built from the person's names: the lower-cased first name,
      followed by the lower-cased last name when there is one. */
  function BaseName(first: string, last: string): (b: string)
    ensures last == [] ==> b == Lower(first)
    ensures last != [] ==> b == Lower(first + last)
  {
    LowerConcat(first, last);
    if last != [] then Lower(first) + Lower(last) else Lower(first)
  }

  /** The part of the address before its first '@', or nothing when the
      address has no '@' (`email.split('@')[0] if '@' in email else ''`). */
  function EmailPrefix(email: string): (p: string)
    ensures '@' !in email ==> p == []
    ensures '@' in email ==> '@' !in p && p + "@" <= email
  {
    if '@' in email then BeforeFirst(email, '@') else []
  }

  /** The k-th name tried after the base name: the prefix itself, then the
      prefix followed by 1, 2, 3, ... */
  function Candidate(prefix: string, k: nat): string {
    if k == 0 then prefix else prefix + DecimalString(k)
  }

  /** Different counters give different names, so every name tried is new. */
  lemma CandidateInjective(prefix: string, j: nat, k: nat)
    requires Candidate(prefix, j) == Candidate(prefix, k)
    ensures j == k
  {
    if j != 0 && k != 0 {
      var a := Candidate(prefix, j);
      assert a[|prefix|..] == DecimalString(j);
      assert a[|prefix|..] == DecimalString(k);
      DecimalStringInjective(j, k);
    }
  }

  /** `name` is the first free name in the order prefix, prefix1, prefix2, ... */
  ghost predicate IsFirstFree(prefix: string, taken: set<string>, name: string) {
    exists k: nat :: name == Candidate(prefix, k) && name !in taken
      && forall j :: 0 <= j < k ==> Candidate(prefix, j) in taken
  }

  /** At most one name is the first free one. */
  lemma FirstFreeUnique(prefix: string, taken: set<string>, a: string, b: string)
    requires IsFirstFree(prefix, taken, a) && IsFirstFree(prefix, taken, b)
    ensures a == b
  {
    var ka: nat :| a == Candidate(prefix, ka) && a !in taken
      && forall j :: 0 <= j < ka ==> Candidate(prefix, j) in taken;
    var kb: nat :| b == Candidate(prefix, kb) && b !in taken
      && forall j :: 0 <= j < kb ==> Candidate(prefix, j) in taken;
    assert !(ka < kb) && !(kb < ka);
  }

  /** The counter loop: tries prefix, prefix1, prefix2, ... until one is not
      taken. Every name it passes over is taken and all of them differ, so
      it stops after at most as many steps as there are taken names. */
  method FirstFreeCandidate(prefix: string, taken: set<string>) returns (name: string, k: nat)
    ensures name == Candidate(prefix, k) && name !in taken
    ensures forall j :: 0 <= j < k ==> Candidate(prefix, j) in taken
    ensures k <= |taken|
  {
    name := prefix;
    k := 0;
    ghost var tried: set<string> := {};
    while name in taken
      invariant name == Candidate(prefix, k)
      invariant forall j :: 0 <= j < k ==> Candidate(prefix, j) in taken
      invariant tried <= taken && |tried| == k && |tried| <= |taken|
      invariant forall s :: s in tried ==> exists j :: 0 <= j < k && s == Candidate(prefix, j)
      decreases |taken| - |tried|
    {
      if name in tried {
        var j :| 0 <= j < k && name == Candidate(prefix, j);
        CandidateInjective(prefix, j, k);
        assert false;
      }
      tried := tried + {name};
      SubsetCard(tried, taken);
      k := k + 1;
      name := Candidate(prefix, k);
    }
  }

  /** `UsernamePreviewView.post`. A blank first name (after stripping) is
      refused. Otherwise the base name is suggested when it is free, and
      also, unchanged, when it is taken but the address has no usable part
      before an '@'; when it is taken and there is such a prefix, the first
      free name among prefix, prefix1, prefix2, ... is suggested. */
  method PreviewUsername(rawFirst: string, rawLast: string, rawEmail: string, taken: set<string>)
    returns (p: Preview)
    ensures p == FirstNameRequired <==> IsBlank(rawFirst)
    ensures var base := BaseName(Strip(rawFirst), Strip(rawLast));
      var prefix := EmailPrefix(Strip(rawEmail));
      && (!IsBlank(rawFirst) && (base !in taken || prefix == []) ==> p == Suggested(base))
      && (!IsBlank(rawFirst) && base in taken && prefix != [] ==>
            p.Suggested? && IsFirstFree(prefix, taken, p.username))
    ensures p.Suggested? ==> p.username !in taken || EmailPrefix(Strip(rawEmail)) == []
  {
    var first := Strip(rawFirst);
    var last := Strip(rawLast);
    var email := Strip(rawEmail);
    if first == [] {
      return FirstNameRequired;
    }
    var username := BaseName(first, last);
    if username in taken {
      var prefix := EmailPrefix(email);
      if prefix != [] {
        var k;
        username, k := FirstFreeCandidate(prefix, taken);
      }
    }
    return Suggested(username);
  }
}
